=== FILE: README.md ===
# SnapmakerController-IDEX print session and firmware-update descriptor, in Dafny

This project models two parts of the SnapmakerController-IDEX firmware and
proves properties of them.

**The print-job session** (`snapmaker/event/event_printer.cpp`). A host
(the touch screen or a PC over the SACP protocol) starts, pauses, resumes
and stops a print. It also streams the G-code to the controller in batches
of at most 450 bytes. The controller asks for each batch itself. It sends a
new pull only when the engine has room for a full batch, and it sends the
pull again when no batch has arrived 2000 ms after the last one. The
requests that change the job's status are acknowledged later, by the
periodic `printer_event_loop`. The acknowledgement goes to the peer of the
last accepted request, with that request's sequence number.

- `print_job.dfy` (module `PrintJob`) states every handler and periodic
  routine as a function from the state before a call to the state after it.
- `event_printer.dfy` (module `EventPrinter`) is the file as it runs. Its
  globals and the collaborator state it writes are fields of one `Printer`
  object. Each method updates those fields in the source's order, and each
  method is proved to end in the state the `PrintJob` function of the same
  name gives. The per-hotend flags are arrays, and `stopping_status_deal`'s
  `HOTEND_LOOP` is a loop over them.
- `print_job_properties.dfy` proves what holds across calls. At most one
  pull goes out per step. Waiting for buffer room, retries, acknowledgement
  routing and the end of a job behave as described above. The file identity
  a start request carries is the one later replies report.
- `printer_codec.dfy` holds the packed byte layouts and their round trips:
  the file-identity block, `batch_gcode_t` and `batch_gcode_req_info_t`.

**The firmware-update descriptor** (`snapmaker/module/update.cpp`).
`update_packet_info_t` sits in a reserved flash page. It carries its own
checksum, a 32-bit wrapping sum of big-endian 16-bit words followed by a
complement. `update_checksum.dfy` computes that checksum with the source's
loop. It proves that a change to any one byte is detected, and that
swapping two whole words is not. `update_flash.dfy` models the flash as an
array of halfwords. Pages are 2 KiB below the 512 KiB mark and 4 KiB above
it. The file holds the page-erase walk and the little-endian halfword
writer, with a read-back lemma. `update_server.dfy` holds the descriptor
check (`update_info_check`) and the erase-then-write commits
(`set_update_status`, `save_update_info`, `init`).

The collaborators are the print controller, the system status service,
the power-loss record and the hotend driver. What they report during one
call is a `PrintJob.Engine` value passed to that call. This covers free
buffer space, next and current line, operation results and mode flags. The
calls this file makes into them are recorded in `engineLog`, and the
messages it sends in `outbox`. The millisecond clock is the parameter
`now`.

Behaviour of the code worth knowing:

- A stop request is accepted in every status, including IDLE. It gets no
  error reply (`event_printer.cpp:177-183`); see `PrintJobProperties.StopAckedToRequester`.
- Suppose a stop arrives while a tool-change pause is pending. The next
  evaluation stops the job; it does not resume printing first
  (`PrintJobProperties.StopOverridesToolChange`).
- A rejected request gets a `PRINT_RESULT_*_ERR` reply byte: pause answers
  `PRINT_RESULT_PAUSE_ERR_E` and resume `PRINT_RESULT_RESUME_ERR_E`, while
  the single-extruder request reuses the start request's
  `PRINT_RESULT_START_ERR_E` (`event_printer.cpp:150-195`).
- A pull is retried only when the deadline has strictly passed
  (`gcode_req_timeout < millis()`, `event_printer.cpp:336-341`).
- Every failure of the descriptor check returns the same `E_PARAM`
  (`update.cpp:65-80`).

## Model

| member | source | states |
|---|---|---|
| UpdateChecksum.CalcChecksum | snapmaker/module/update.cpp:16-31 | A null or empty buffer gives 0. Otherwise the result added to the 32-bit sum of the big-endian words (an odd last byte added unshifted) is 0xFFFFFFFF modulo 2^32, i.e. the complement of the wrapped sum. |
| UpdateChecksum.SingleByteChangeDetected | snapmaker/module/update.cpp:16-31 | Two equally long buffers that differ in exactly one byte have different checksums. |
| UpdateChecksum.SwappedWordsUndetected | snapmaker/module/update.cpp:22-23 | Exchanging two whole 16-bit words leaves the checksum unchanged: the checksum cannot detect reordered words. |
| UpdateFlash.Flash.ErasePages | snapmaker/module/update.cpp:33-43 | Erases the pages of the walk that advances 2 KiB below DATA_FLASH_START_ADDR and 4 KiB from it on. The cells are the erase image of that walk, and the erase log grows by the walk's page addresses. |
| UpdateFlash.EraseWalkCovers | snapmaker/module/update.cpp:35-41 | After erasing n pages from a page-aligned address, a cell reads 0xFFFF exactly when its address lies between the start and the end of the walk; every other cell is unchanged. |
| UpdateFlash.WalkStaysAligned | snapmaker/module/update.cpp:37-40 | Starting from a page boundary, every address the walk visits is a page boundary. |
| UpdateFlash.Flash.Write | snapmaker/module/update.cpp:45-58 | Programs the data as little-endian halfwords from the address. An odd last byte becomes 0xFF00 or'ed with it. The program log records one operation per halfword at consecutive even addresses. |
| UpdateFlash.WriteReadBack | snapmaker/module/update.cpp:48-56 | Reading back the bytes written from an even address gives exactly the data written, an odd last byte included. |
| UpdateServer.DecodeEncode | snapmaker/module/update.cpp:83-85 | Copying a descriptor to flash bytes and back gives the same descriptor. |
| UpdateServer.EncodeDecode | snapmaker/module/update.cpp:83-85 | Any descriptor-sized bytes are the encoding of the descriptor read from them. |
| UpdateServer.PacketHeadChecksum | snapmaker/module/update.cpp:60-63 | The header checksum is the checksum of exactly the bytes of every field before `pack_head_checknum`. |
| UpdateServer.PacketHeadChecksumIgnoresChecknum | snapmaker/module/update.cpp:60-63 | The header checksum covers every field but `pack_head_checknum`: changing the stored checksum does not change it. |
| UpdateServer.InfoCheck | snapmaker/module/update.cpp:65-80 | Success if and only if the stored checksum matches, the application start address is a multiple of 2 KiB and it is at least FLASH_BASE + BOOT_CODE_SIZE; E_PARAM otherwise. |
| UpdateServer.CorruptedDescriptorRejected | snapmaker/module/update.cpp:65-69 | A descriptor that passes the check fails it once any single byte is changed, whether in a covered field or in the stored checksum. |
| UpdateServer.IsAllowUpdate | snapmaker/module/update.cpp:104-107 | Allows the update (E_SUCCESS) if and only if the stored checksum matches, the application start address is 2 KiB aligned and it lies at or above FLASH_BASE + BOOT_CODE_SIZE; otherwise it answers E_PARAM. |
| UpdateServer.Sealed | snapmaker/module/update.cpp:86-88 | Recomputing and embedding the checksum changes only the checksum field, and the result passes the checksum comparison. |
| UpdateServer.Commit | snapmaker/module/update.cpp:90-91 | After erasing the reserved page and writing the descriptor, reading the page back gives that descriptor. The whole flash becomes the descriptor's halfwords programmed over the image with the reserved page erased, so the rest of the page reads 0xFFFF. One page is erased, the program log gains the descriptor's halfwords in order, and no cell outside the page changes. |
| UpdateServer.SetUpdateStatus | snapmaker/module/update.cpp:82-92 | The stored descriptor becomes the old one with the new status and a freshly matching checksum. The reserved page is erased once and the descriptor's halfwords are programmed into it: the whole flash is that image, the rest of the page reads 0xFFFF, and nothing outside the reserved page changes. |
| UpdateServer.SaveUpdateInfo | snapmaker/module/update.cpp:94-102 | The caller's descriptor gets status START, the serial port and the receiver id, and a matching checksum. It is stored in flash, and its other fields are kept. The reserved page is erased once and the descriptor's halfwords are programmed into it: the whole flash is that image, the rest of the page reads 0xFFFF, and nothing outside the page changes. |
| UpdateServer.Init | snapmaker/module/update.cpp:113-118 | Afterwards the stored status is APP_NORMAL. If it already was, no flash cell and no log changes, so a second call does nothing. Otherwise the descriptor is rewritten with that status and a matching checksum: one erase of the reserved page, then the descriptor's halfwords programmed into it. The whole flash is that image, the rest of the page reads 0xFFFF, and no cell outside the page changes. |
| PrinterCodec.LoadFileInfo | snapmaker/event/event_printer.cpp:75-98 | The buffer keeps its length. A present md5 is written as its 16-bit little-endian length and its bytes at the start; a missing one leaves the first two bytes alone. The name's length and bytes follow two bytes after the md5's bytes, even when the md5 is missing. Every byte after the two blocks is untouched. The returned length counts 2 + length for each present field and nothing for a missing one, so it is 0 when neither is recorded. |
| PrinterCodec.ParseFileIdentity | snapmaker/event/event_printer.cpp:132-137 | An identity it finds fits, with both length prefixes, inside the payload; FileInfoRoundTrip and ParsedIdentityReloads make it the inverse of LoadFileInfo. |
| PrinterCodec.FileInfoRoundTrip | snapmaker/event/event_printer.cpp:75-98 | Parsing the block `load_gcode_file_info` writes gives back the md5 and the file name, and the returned length is 4 + both lengths. |
| PrinterCodec.ParsedIdentityReloads | snapmaker/event/event_printer.cpp:132-137 | Writing the md5 and name parsed from a start payload back over that payload changes none of its bytes, so the two layouts are the same. |
| PrinterCodec.ParseFileIdentityPrefix | snapmaker/event/event_printer.cpp:132-137 | The identity is read from its declared bytes only; any longer prefix of the payload parses the same. |
| PrinterCodec.MissingMd5ShiftsName | snapmaker/event/event_printer.cpp:84-93 | With no md5, the name's block is still written two bytes in, while the returned length counts only the name's block. |
| PrinterCodec.ParseBatch | snapmaker/event/event_printer.cpp:114-116 | A batch it finds fits, with its 11-byte header, inside the payload, and its data is shorter than 64 KiB; BatchRoundTrip and ParsedBatchReencodes make it the inverse of EncodeBatch. |
| PrinterCodec.BatchRoundTrip | snapmaker/event/event_printer.cpp:25-31 | An encoded batch parses back to the same flag, line range and data, whatever bytes follow it. |
| PrinterCodec.ParsedBatchReencodes | snapmaker/event/event_printer.cpp:25-31 | A parsed batch re-encodes to exactly the bytes it was read from. |
| PrinterCodec.PackRequestFields | snapmaker/event/event_printer.cpp:20-23 | A pull request carries the wanted line in its first four bytes and the limit 450 in the next two. |
| PrintJob.SaveSource | snapmaker/event/event_printer.cpp:69-73 | Afterwards the session peer is the request's source, receiver id and sequence number. |
| PrintJob.ReqGcodePack | snapmaker/event/event_printer.cpp:319-334 | Sends a pull for the engine's next line if and only if at least 450 bytes are free, and then waits to receive; otherwise it sends nothing and waits for room. When it pulls, the deadline becomes now + 2000 ms; otherwise the deadline is kept. Only the pull state, its deadline and the outbox change. |
| PrintJob.Lookup | snapmaker/event/event_printer.cpp:300-317 | A command has a mode in the table exactly when some entry names it, and a command that is found gets the run mode of its first entry. |
| PrintJobProperties.CallbackTableComplete | snapmaker/event/event_printer.cpp:300-317 | The callback table names every printer command except the status report, and each one only once. |
| PrintJobProperties.DispatchPullsAtMostOnce | snapmaker/event/event_printer.cpp:300-317 | Every request handler only appends to the outbox, and it appends at most one pull. A handler that pulls leaves the pull state WAIT_RECV with the deadline now + 2000. |
| PrintJobProperties.GcodePackDealPullsAtMostOnce | snapmaker/event/event_printer.cpp:114-124 | Receiving a batch sends at most one further pull and arms its deadline when it does. |
| PrintJobProperties.StartWorkPullsAtMostOnce | snapmaker/event/event_printer.cpp:126-148 | A start sends its reply and at most one pull, and arms the deadline when it pulls. |
| PrintJobProperties.PowerLossResumePullsAtMostOnce | snapmaker/event/event_printer.cpp:224-238 | A power-loss resume sends its reply and at most one pull, and arms the deadline when it pulls. |
| PrintJobProperties.ReplyingHandlersDoNotPull | snapmaker/event/event_printer.cpp:150-298 | Every other handler appends nothing or one acknowledgement, so the number of pulls in the outbox stays the same. |
| PrintJobProperties.PausingPullsAtMostOnce | snapmaker/event/event_printer.cpp:356-387 | Whatever the pause cause, completing a pause pulls at most once and arms the deadline when it does. |
| PrintJobProperties.EventLoopPullsAtMostOnce | snapmaker/event/event_printer.cpp:446-466 | Every periodic evaluation only appends to the outbox and pulls at most once, arming the deadline when it does. |
| PrintJobProperties.DispatchKeepsWf | snapmaker/event/event_printer.cpp:126-140 | Handlers keep one flag per hotend and a stored md5 and file name that fit the power-loss record. |
| PrintJobProperties.EventLoopKeepsWf | snapmaker/event/event_printer.cpp:432-435 | Periodic evaluations keep one flag per hotend and the stored file identity. |
| PrintJobProperties.PullWaitsForRoom | snapmaker/event/event_printer.cpp:394-398 | While a print waits for buffer room, an evaluation changes nothing until 450 bytes are free. Then it sends exactly one pull for the next line and arms the deadline. |
| PrintJobProperties.PullRetriedOnlyAfterDeadline | snapmaker/event/event_printer.cpp:336-341 | While a pull is outstanding, an evaluation at or before the deadline changes nothing, whatever the engine reports. One strictly after it sends one pull for the engine's next line and re-arms the deadline 2000 ms on when the engine has room for a full batch; without room it sends nothing and waits for room. |
| PrintJobProperties.OnePullPerTimeout | snapmaker/event/event_printer.cpp:336-341 | A retry at time t1 sends at most the one pull. When it pulled, no evaluation up to t1 + 2000 changes anything, whatever the engine then reports; when it had no room, the pulling waits for room. |
| PrintJobProperties.NextBatchPulledAtOnce | snapmaker/event/event_printer.cpp:114-124 | A batch that is not the last is pushed to the engine. With room for a full batch, exactly one pull for the engine's next line goes to the session peer, and the deadline becomes now + 2000 ms. Without room nothing is sent and the pulling waits for room. Nothing else changes. |
| PrintJobProperties.LastBatchEndsJob | snapmaker/event/event_printer.cpp:114-124 | The last batch is still pushed and no pull follows it. Evaluations change nothing while the engine holds instructions. Once it is empty the job goes to STOPPING as done, and the next evaluation reports PRINT_DONE to the session peer. |
| PrintJobProperties.RejectedRequestsChangeNothing | snapmaker/event/event_printer.cpp:150-195 | A pause outside PRINTING, a resume outside PAUSED and a single-extruder request while idle and not duplicating change nothing but the error reply they get. |
| PrintJobProperties.AcceptedRequestsTakeSession | snapmaker/event/event_printer.cpp:150-183 | An accepted pause, resume or stop takes over the session from whoever held it before. It moves the job to PAUSING, RESUMING or STOPPING with cause SACP and sends nothing yet. Pause and stop also set the pulling back to idle, and resume leaves it as it was. |
| PrintJobProperties.StartStoresIdentity | snapmaker/event/event_printer.cpp:126-148 | A successful start records the md5 and the file name from the two length-prefixed fields of the request. It takes the session and replies E_SUCCESS before it pulls. A failed start only calls the engine and replies with its result; the recorded identity and the session stay as they were. |
| PrintJobProperties.PauseOutcomeByCause | snapmaker/event/event_printer.cpp:356-387 | Completing a pause always pauses the engine first. A filament or G-code pause then reports its status (3 or 1) to the session peer. A tool-change pause changes the head, resumes and pulls. A single-extruder pause resumes, acknowledges with the resume result and pulls. Any other cause acknowledges PAUSE_WORK with the pause result. |
| PrintJobProperties.PrintingTickWithoutPull | snapmaker/event/event_printer.cpp:394-408 | While printing with the pulling idle, an evaluation changes nothing. After the last batch it changes nothing until the engine has drained, and then it stops the job as done. |
| PrintJobProperties.PauseAckedToRequester | snapmaker/event/event_printer.cpp:150-162 | After an accepted pause, pulling stops. The next evaluation pauses the engine and acknowledges PAUSE_WORK to the requester with its sequence number and the engine's result. |
| PrintJobProperties.ResumeAckedToRequester | snapmaker/event/event_printer.cpp:414-425 | After an accepted resume, the next evaluation resumes the engine and acknowledges RESUME_WORK to the requester, whatever room the engine has. It then pulls when the engine has room for a full batch and otherwise waits for room. When it pulls, the acknowledgement names the same line the pull asks for. |
| PrintJobProperties.StopAckedToRequester | snapmaker/event/event_printer.cpp:427-444 | A stop is accepted in every status. The next evaluation stops the engine, re-enables duplication, unlocks every hotend and restores the feedrate. It acknowledges STOP_WORK to the requester only. |
| PrintJobProperties.LaterStopTakesSession | snapmaker/event/event_printer.cpp:177-183 | A stop after a pending pause takes over the session: only the stop's requester is answered. |
| PrintJobProperties.StopOverridesToolChange | snapmaker/event/event_printer.cpp:367-372 | A tool-change pause alone changes the head, resumes and pulls if the engine has room. With a stop in between, the next evaluation stops instead, whatever room the engine has, with no pause, resume or pull. |
| PrintJobProperties.StopSingleExtrudeWhilePrinting | snapmaker/event/event_printer.cpp:185-210 | While printing, the hotend's duplication flag is set at once. The next evaluation pauses and resumes the engine, acknowledges to the requester with the resume result, whatever room the engine has. It then pulls if the engine has room for a full batch and otherwise waits for room. |
| PrintJobProperties.StopSingleExtrudeStashedWhenNotPrinting | snapmaker/event/event_printer.cpp:199-205 | Outside printing, only the power-loss stash takes the flag and the request is answered with success. The live flags and the status stay. |
| PrintJobProperties.NoRecordReportsNoFileInfo | snapmaker/event/event_printer.cpp:100-112 | With neither field recorded, the reply starts with PRINT_RESULT_NO_FILE_INFO_E, still has sizeof(gcode_file_info_t) + 1 bytes, and carries the request's own bytes after the code. |
| PrintJobProperties.FileInfoReplyCarriesRecord | snapmaker/event/event_printer.cpp:100-112 | With both fields recorded, the reply has sizeof(gcode_file_info_t) + 1 bytes, starts with E_SUCCESS and its block parses to the recorded md5 and name. |
| PrintJobProperties.FileInfoReportsStartedFile | snapmaker/event/event_printer.cpp:126-140 | After a successful start, a file-information reply parses to the same md5 and name the start payload carried. |
| PrintJobProperties.PowerLossStatusReportsRecord | snapmaker/event/event_printer.cpp:212-222 | With a record present, the reply is E_SUCCESS followed by exactly the identity block, 5 + both lengths bytes in all. |
| EventPrinter.Printer.constructor | snapmaker/event/event_printer.cpp:61-65 | The session starts at the HMI channel with receiver 0, sequence 0, no pull outstanding and deadline 0. |
| EventPrinter.Printer.SaveEventSourceInfo | snapmaker/event/event_printer.cpp:69-73 | Ends in `PrintJob.SaveSource` of the old state: only the session peer changes. |
| EventPrinter.Printer.ReqGcodePack | snapmaker/event/event_printer.cpp:319-334 | Ends in `PrintJob.ReqGcodePack` of the old state. |
| EventPrinter.Printer.GcodeReqTimeoutDeal | snapmaker/event/event_printer.cpp:336-341 | Ends in `PrintJob.GcodeReqTimeoutDeal` (see PullRetriedOnlyAfterDeadline): nothing changes at or before the deadline; after it, a pull with room and a wait for room without. |
| EventPrinter.Printer.ReportStatusInfo | snapmaker/event/event_printer.cpp:343-346 | Ends in `PrintJob.ReportStatusInfo`: one status report to the session peer. |
| EventPrinter.Printer.RequestFileInfo | snapmaker/event/event_printer.cpp:100-112 | Ends in `PrintJob.RequestFileInfo` (see FileInfoReplyCarriesRecord, NoRecordReportsNoFileInfo). |
| EventPrinter.Printer.GcodePackDeal | snapmaker/event/event_printer.cpp:114-124 | Ends in `PrintJob.GcodePackDeal` (see NextBatchPulledAtOnce, LastBatchEndsJob, GcodePackDealPullsAtMostOnce). |
| EventPrinter.Printer.RequestStartWork | snapmaker/event/event_printer.cpp:126-148 | Ends in `PrintJob.RequestStartWork` (see StartWorkPullsAtMostOnce, FileInfoReportsStartedFile). |
| EventPrinter.Printer.RequestPauseWork | snapmaker/event/event_printer.cpp:150-162 | Ends in `PrintJob.RequestPauseWork` (see PauseAckedToRequester, RejectedRequestsChangeNothing). |
| EventPrinter.Printer.RequestResumeWork | snapmaker/event/event_printer.cpp:164-175 | Ends in `PrintJob.RequestResumeWork` (see ResumeAckedToRequester). |
| EventPrinter.Printer.RequestStopWork | snapmaker/event/event_printer.cpp:177-183 | Ends in `PrintJob.RequestStopWork` (see StopAckedToRequester). |
| EventPrinter.Printer.RequestStopSingleExtrude | snapmaker/event/event_printer.cpp:185-210 | Ends in `PrintJob.RequestStopSingleExtrude`. The hotend's stash or duplication array cell is updated in place (see StopSingleExtrudeWhilePrinting). |
| EventPrinter.Printer.RequestPowerLossStatus | snapmaker/event/event_printer.cpp:212-222 | Ends in `PrintJob.RequestPowerLossStatus` (see PowerLossStatusReportsRecord). |
| EventPrinter.Printer.RequestPowerLossResume | snapmaker/event/event_printer.cpp:224-238 | Ends in `PrintJob.RequestPowerLossResume`. The reply is always E_SUCCESS, and the session is saved and a pull attempted. |
| EventPrinter.Printer.RequestClearPowerLoss | snapmaker/event/event_printer.cpp:240-246 | Ends in `PrintJob.RequestClearPowerLoss`: the record is cleared and the reply is E_SUCCESS. |
| EventPrinter.Printer.SetPrinterMode | snapmaker/event/event_printer.cpp:248-253 | Ends in `PrintJob.SetPrinterMode`: the mode byte goes to the controller and its result comes back. |
| EventPrinter.Printer.RequestAutoParkStatus | snapmaker/event/event_printer.cpp:255-262 | Ends in `PrintJob.RequestAutoParkStatus`: two bytes, E_SUCCESS and the backup-mode flag. |
| EventPrinter.Printer.SetAutoParkMode | snapmaker/event/event_printer.cpp:264-272 | Ends in `PrintJob.SetAutoParkMode`: a non-zero byte selects auto-park, zero selects backup. |
| EventPrinter.Printer.RequestCurLine | snapmaker/event/event_printer.cpp:274-280 | Ends in `PrintJob.RequestCurLine`: E_SUCCESS followed by the current line, little-endian. |
| EventPrinter.Printer.RequestTemperatureLock | snapmaker/event/event_printer.cpp:282-288 | Ends in `PrintJob.RequestTemperatureLock`: 1 when idle, otherwise the request's own first byte. |
| EventPrinter.Printer.SetWorkFeedratePercentage | snapmaker/event/event_printer.cpp:290-298 | Ends in `PrintJob.SetWorkFeedratePercentage`: the four percentage bytes go to the controller and the reply is E_SUCCESS. |
| EventPrinter.Printer.Dispatch | snapmaker/event/event_printer.cpp:300-317 | Ends in `PrintJob.Dispatch`: the handler the table registers for the command, nothing for a status report. |
| EventPrinter.Printer.WaitPrintEnd | snapmaker/event/event_printer.cpp:348-354 | Ends in `PrintJob.WaitPrintEnd`: STOPPING as done once the engine's buffer is empty. |
| EventPrinter.Printer.PrintingStatusDeal | snapmaker/event/event_printer.cpp:394-408 | Ends in `PrintJob.PrintingStatusDeal` (see PullWaitsForRoom, PullRetriedOnlyAfterDeadline). |
| EventPrinter.Printer.PausingStatusDeal | snapmaker/event/event_printer.cpp:356-387 | Ends in `PrintJob.PausingStatusDeal` (see PausingPullsAtMostOnce, StopOverridesToolChange). |
| EventPrinter.Printer.ResumingStatusDeal | snapmaker/event/event_printer.cpp:414-425 | Ends in `PrintJob.ResumingStatusDeal` (see ResumeAckedToRequester). |
| EventPrinter.Printer.StoppingStatusDeal | snapmaker/event/event_printer.cpp:427-444 | Ends in `PrintJob.StoppingStatusDeal`. The loop sets every hotend's duplication flag and clears its temperature lock in the arrays (see StopAckedToRequester). |
| EventPrinter.Printer.PrinterEventLoop | snapmaker/event/event_printer.cpp:446-466 | Ends in `PrintJob.PrinterEventLoop`; IDLE and PAUSED do nothing (see EventLoopPullsAtMostOnce). |

## Left out

- `UpdateServer::just_to_boot` (`update.cpp:109-111`) only starts the watchdog; the watchdog and the reset it causes are not modelled.
- `FLASH_Unlock`/`FLASH_Lock` are not modelled. `FLASH_ErasePage` sets the page's halfwords to 0xFFFF. `FLASH_ProgramHalfWord` stores the halfword; the hardware's write-only-to-erased rule is not modelled. The flash driver (flash_stm32) is not part of this model.
- `update.h`, `power_loss.h`, `print_control.h` and the event headers are not part of this model. These values are therefore placeholders: BOOT_CODE_SIZE (64 KiB), UPDATE_STATUS_APP_NORMAL/START (0/1), the order of the descriptor's fields other than the trailing checksum (40 unnamed bytes first), GCODE_MD5_LENGTH (32), GCODE_FILE_NAME_SIZE (128), the `PRINT_RESULT_*` codes, the print modes and HOTENDS (2). Only E_SUCCESS = 0 and the `report_status_e` values are taken from the code.
- `printer_event_init` (`event_printer.cpp:389-392`) only initialises the filament sensor and the power-loss record, which are not part of this model. `paused_status_deal` (410-412) is empty and is modelled as doing nothing.
- Status changes that the collaborators make inside `print_control.pause()`, `resume()`, `stop()` and `start()` are not modelled (to PAUSED, PRINTING, IDLE). Nor are the filament sensor's and G-code's own pauses. The model changes the system status only where event_printer.cpp sets it.
- The collaborators' answers are one `Engine` value per call. Two queries within one call, such as free buffer space before and after a resume, therefore see the same answer.
- EventPrinter.Printer.SetWorkFeedratePercentage: the percentage is kept as its four raw bytes. The `INT_TO_FLOAT` conversion and floating-point feedrate are not modelled.
- PrintJob.ReqGcodePack: the deadline `millis() + 2000` is an unbounded natural. The wrap of the 32-bit millisecond counter after about 49 days is not modelled.
- `MODULE_INDEX` is not part of this model. The hotend index is the request's first byte, and a request that would index past the hotends is excluded by a precondition.
- The source reads the event buffer without bounds checks. A model handler requires the buffer to hold what it reads (`PrintJob.Handles`). For a successful start, this means a payload whose md5 and name fit the power-loss record. What happens on shorter buffers is not modelled.
- `send_event` is modelled as appending to the outbox; the SACP framing, transport and `COMMAND_SET_PRINTER` are not. Handler return codes, which go to the event framework, and the task-run versus direct-run scheduling are not modelled; the run mode is only recorded in the table.
- `power_loss.clear()` is modelled as dropping the stored md5 and file name. The rest of the power-loss record, and `power_loss_resume`'s own work, are not part of this model.
- PrinterCodec.LoadFileInfo: `power_loss.get_file_md5` and `get_file_name` (power_loss.cpp is not part of this model) take the length by reference. The model assumes that a missing field leaves that length at 0. Where the name block lands when the md5 is missing (`PrinterCodec.MissingMd5ShiftsName`) depends on this assumption.
- Serial logging (`SERIAL_ECHO*`) has no effect on state and is left out.

=== FILE: bytes.dfy ===
/** The optional value returned by lookups and parsers that can fail. */
module Options {
  datatype Option<+T> = None | Some(value: T)
}

/**
 * Fixed-width unsigned integers and the little-endian byte layouts the
 * firmware uses when it reinterprets packed structures (the controller is
 * a little-endian Cortex-M part).
 */
module Bytes {
  type byte = x: int | 0 <= x < 0x100
  type u16 = x: int | 0 <= x < 0x1_0000
  type u32 = x: int | 0 <= x < 0x1_0000_0000

  /** The two bytes of a `uint16_t` in memory, least significant first. */
  function Le16(v: u16): (s: seq<byte>)
    ensures |s| == 2
  {
    [v % 0x100, v / 0x100]
  }

  /** The four bytes of a `uint32_t` in memory, least significant first. */
  function Le32(v: u32): (s: seq<byte>)
    ensures |s| == 4
  {
    [v % 0x100, (v / 0x100) % 0x100, (v / 0x1_0000) % 0x100, v / 0x100_0000]
  }

  /** Reads a `uint16_t` stored at `s[at..at+2]`. */
  function ReadLe16(s: seq<byte>, at: nat): (v: u16)
    requires at + 2 <= |s|
  {
    s[at] as int + 0x100 * s[at + 1] as int
  }

  /** Reads a `uint32_t` stored at `s[at..at+4]`. */
  function ReadLe32(s: seq<byte>, at: nat): (v: u32)
    requires at + 4 <= |s|
  {
    s[at] as int + 0x100 * s[at + 1] as int + 0x1_0000 * s[at + 2] as int + 0x100_0000 * s[at + 3] as int
  }

  /** Reading back a stored `uint16_t` gives the value stored. */
  lemma ReadLe16Of(s: seq<byte>, at: nat, v: u16)
    requires at + 2 <= |s| && s[at..at + 2] == Le16(v)
    ensures ReadLe16(s, at) == v
  {
    assert s[at] == v % 0x100 && s[at + 1] == v / 0x100;
  }

  /** Reading back a stored `uint32_t` gives the value stored. */
  lemma ReadLe32Of(s: seq<byte>, at: nat, v: u32)
    requires at + 4 <= |s| && s[at..at + 4] == Le32(v)
    ensures ReadLe32(s, at) == v
  {
    assert s[at] == v % 0x100 && s[at + 1] == (v / 0x100) % 0x100;
    assert s[at + 2] == (v / 0x1_0000) % 0x100 && s[at + 3] == v / 0x100_0000;
    var b1, b2, b3 := (v / 0x100) % 0x100, (v / 0x1_0000) % 0x100, v / 0x100_0000;
    assert v / 0x100 == b1 + 0x100 * ((v / 0x100) / 0x100);
    assert (v / 0x100) / 0x100 == v / 0x1_0000;
    assert v / 0x1_0000 == b2 + 0x100 * ((v / 0x1_0000) / 0x100);
    assert (v / 0x1_0000) / 0x100 == b3;
  }

  /** Every two bytes are the layout of exactly the `uint16_t` read from them. */
  lemma Le16OfRead(s: seq<byte>, at: nat)
    requires at + 2 <= |s|
    ensures Le16(ReadLe16(s, at)) == s[at..at + 2]
  {
  }

  /** Every four bytes are the layout of exactly the `uint32_t` read from them. */
  lemma Le32OfRead(s: seq<byte>, at: nat)
    requires at + 4 <= |s|
    ensures Le32(ReadLe32(s, at)) == s[at..at + 4]
  {
    var v := ReadLe32(s, at);
    var b0, b1, b2, b3: int := s[at], s[at + 1], s[at + 2], s[at + 3];
    assert v / 0x100 == b1 + 0x100 * b2 + 0x1_0000 * b3;
    assert v / 0x1_0000 == b2 + 0x100 * b3;
    assert v / 0x100_0000 == b3;
  }
}

=== FILE: event_printer.dfy ===
/**
 * event_printer.cpp as it runs: the globals of the file and the state it
 * writes in its collaborators are fields of one `Printer` object, and each
 * handler or periodic routine is a method that updates them in place, in
 * the order the source does. Every method is proved to leave the object
 * in the state the matching function of module PrintJob gives, so the
 * properties proved there hold of the running object.
 */
module EventPrinter {
  import opened Bytes
  import opened Options
  import opened PrinterCodec
  import opened PrintJob

  class Printer {
    // the file's globals
    var printSource: EventSource
    var sourceReceiverId: byte
    var sourceSequence: u16
    var reqStatus: ReqStatus
    var reqTimeout: nat
    // what the file writes in its collaborators
    var sysStatus: SystemStatus
    var sysSource: StatusSource
    var fileMd5: Option<seq<byte>>
    var fileName: Option<seq<byte>>
    const duplication: array<bool>
    const tempLocked: array<bool>
    const dualEnableStash: array<byte>
    var engineLog: seq<EngineCall>
    var outbox: seq<Message>

    function Snapshot(): State
      reads this, duplication, tempLocked, dualEnableStash
    {
      State(printSource, sourceReceiverId, sourceSequence, reqStatus, reqTimeout, sysStatus, sysSource,
            fileMd5, fileName, duplication[..], tempLocked[..], dualEnableStash[..], engineLog, outbox)
    }

    ghost predicate Valid()
      reads this, duplication, tempLocked, dualEnableStash
    {
      && duplication != tempLocked
      && Wf(Snapshot())
    }

    /** The globals start as the file initialises them; the collaborators' state is given. */
    constructor (status: SystemStatus, cause: StatusSource, md5: Option<seq<byte>>, name: Option<seq<byte>>,
                 dup: seq<bool>, locks: seq<bool>, stash: seq<byte>)
      requires Wf(State(Hmi, 0, 0, ReqIdle, 0, status, cause, md5, name, dup, locks, stash, [], []))
      ensures Valid()
      ensures Snapshot() == State(Hmi, 0, 0, ReqIdle, 0, status, cause, md5, name, dup, locks, stash, [], [])
    {
      printSource, sourceReceiverId, sourceSequence := Hmi, 0, 0;
      reqStatus, reqTimeout := ReqIdle, 0;
      sysStatus, sysSource := status, cause;
      fileMd5, fileName := md5, name;
      duplication := new bool[HOTENDS](i requires 0 <= i < HOTENDS => dup[i]);
      tempLocked := new bool[HOTENDS](i requires 0 <= i < HOTENDS => locks[i]);
      dualEnableStash := new byte[HOTENDS](i requires 0 <= i < HOTENDS => stash[i]);
      engineLog, outbox := [], [];
      new;
      assert duplication[..] == dup && tempLocked[..] == locks && dualEnableStash[..] == stash;
    }

    /** `send_event`. */
    method SendEvent(m: Message)
      requires Valid()
      modifies this
      ensures Valid() && Snapshot() == Send(old(Snapshot()), m)
    {
      outbox := outbox + [m];
    }

    /** A call into the print controller or the power-loss record. */
    method Invoke(c: EngineCall)
      requires Valid()
      modifies this
      ensures Valid() && Snapshot() == Call(old(Snapshot()), c)
    {
      engineLog := engineLog + [c];
    }

    method SaveEventSourceInfo(ev: Event)
      requires Valid()
      modifies this
      ensures Valid() && Snapshot() == SaveSource(old(Snapshot()), ev)
    {
      printSource := ev.source;
      sourceReceiverId := ev.receiverId;
      sourceSequence := ev.sequence;
    }

    method ReqGcodePack(env: Engine, now: nat)
      requires Valid()
      modifies this
      ensures Valid() && Snapshot() == PrintJob.ReqGcodePack(old(Snapshot()), env, now)
    {
      var freeBuf := env.bufFree;
      if freeBuf >= GCODE_MAX_PACK_SIZE {
        var info := PackRequest(env.nextLine);
        SendEvent(Message(printSource, sourceReceiverId, AttrReq, ReqGcode, info, None));
        reqStatus := WaitRecv;
        reqTimeout := now + GCODE_REQ_TIMEOUT_MS;
      } else {
        reqStatus := WaitCache;
      }
    }

    method GcodeReqTimeoutDeal(env: Engine, now: nat)
      requires Valid()
      modifies this
      ensures Valid() && Snapshot() == PrintJob.GcodeReqTimeoutDeal(old(Snapshot()), env, now)
    {
      if reqTimeout < now {
        ReqGcodePack(env, now);
      }
    }

    method ReportStatusInfo(status: byte)
      requires Valid()
      modifies this
      ensures Valid() && Snapshot() == PrintJob.ReportStatusInfo(old(Snapshot()), status)
    {
      SendEvent(Message(printSource, sourceReceiverId, AttrReq, ReportStatus, [status], None));
    }

    // -------------------------------------------------------------- handlers

    method RequestFileInfo(ev: Event)
      requires Valid() && |ev.data| >= FILE_INFO_SIZE + 1
      modifies this
      ensures Valid() && Snapshot() == PrintJob.RequestFileInfo(old(Snapshot()), ev)
    {
      var (buf, retLen) := LoadFileInfo(ev.data[1..], fileMd5, fileName);
      var code := if retLen != 0 then E_SUCCESS else PRINT_RESULT_NO_FILE_INFO_E;
      var length := FILE_INFO_SIZE + 1;
      SendEvent(Reply(ev, ([code] + buf)[..length]));
    }

    method GcodePackDeal(ev: Event, env: Engine, now: nat)
      requires Valid() && ParseBatch(ev.data).Some?
      modifies this
      ensures Valid() && Snapshot() == PrintJob.GcodePackDeal(old(Snapshot()), ev, env, now)
    {
      var gcode := ParseBatch(ev.data).value;
      Invoke(Push(gcode.startLine, gcode.endLine, gcode.data));
      if gcode.flag == PRINT_RESULT_GCODE_RECV_DONE_E {
        reqStatus := ReqDone;
      } else {
        ReqGcodePack(env, now);
      }
    }

    method RequestStartWork(ev: Event, env: Engine, now: nat)
      requires Valid() && (env.startResult == E_SUCCESS ==> StartPayloadOk(ev.data))
      modifies this
      ensures Valid() && Snapshot() == PrintJob.RequestStartWork(old(Snapshot()), ev, env, now)
    {
      Invoke(Start);
      var result := env.startResult;
      if result == E_SUCCESS {
        var (md5, name) := ParseFileIdentity(ev.data).value;
        fileMd5 := Some(md5);
        fileName := Some(name);
        SaveEventSourceInfo(ev);
      }
      SendEvent(Reply(ev, [result]));
      if result == E_SUCCESS {
        ReqGcodePack(env, now);
      }
    }

    method RequestPauseWork(ev: Event)
      requires Valid()
      modifies this
      ensures Valid() && Snapshot() == PrintJob.RequestPauseWork(old(Snapshot()), ev)
    {
      if sysStatus != Printing {
        SendEvent(Reply(ev, [PRINT_RESULT_PAUSE_ERR_E]));
        return;
      }
      sysStatus, sysSource := Pausing, SourceSacp;
      reqStatus := ReqIdle;
      SaveEventSourceInfo(ev);
    }

    method RequestResumeWork(ev: Event)
      requires Valid()
      modifies this
      ensures Valid() && Snapshot() == PrintJob.RequestResumeWork(old(Snapshot()), ev)
    {
      if sysStatus != Paused {
        SendEvent(Reply(ev, [PRINT_RESULT_RESUME_ERR_E]));
        return;
      }
      SaveEventSourceInfo(ev);
      sysStatus, sysSource := Resuming, SourceSacp;
    }

    method RequestStopWork(ev: Event)
      requires Valid()
      modifies this
      ensures Valid() && Snapshot() == PrintJob.RequestStopWork(old(Snapshot()), ev)
    {
      sysStatus, sysSource := Stopping, SourceSacp;
      reqStatus := ReqIdle;
      SaveEventSourceInfo(ev);
    }

    method RequestStopSingleExtrude(ev: Event, env: Engine)
      requires Valid() && |ev.data| >= 2
      requires !StopSingleRejected(Snapshot(), env) ==> ev.data[0] < HOTENDS
      modifies this, duplication, dualEnableStash
      ensures Valid() && Snapshot() == PrintJob.RequestStopSingleExtrude(old(Snapshot()), ev, env)
    {
      var e, en := ev.data[0], ev.data[1];
      if sysStatus == Idle && !env.duplicating {
        SendEvent(Reply(ev, [PRINT_RESULT_START_ERR_E]));
        return;
      }
      SaveEventSourceInfo(ev);
      if sysStatus != Printing {
        dualEnableStash[e] := en;
        SendEvent(Reply(ev, [E_SUCCESS]));
        return;
      }
      duplication[e] := en != 0;
      sysStatus, sysSource := Pausing, SourceStopExtrude;
    }

    method RequestPowerLossStatus(ev: Event, env: Engine)
      requires Valid() && |ev.data| >= FILE_INFO_SIZE + 1
      modifies this
      ensures Valid() && Snapshot() == PrintJob.RequestPowerLossStatus(old(Snapshot()), ev, env)
    {
      var code := env.powerLossStatus;
      if code == E_SUCCESS {
        var (buf, retLen) := LoadFileInfo(ev.data[1..], fileMd5, fileName);
        SendEvent(Reply(ev, ([code] + buf)[..retLen + 1]));
      } else {
        SendEvent(Reply(ev, [code] + ev.data[1..5]));
      }
    }

    method RequestPowerLossResume(ev: Event, env: Engine, now: nat)
      requires Valid()
      modifies this
      ensures Valid() && Snapshot() == PrintJob.RequestPowerLossResume(old(Snapshot()), ev, env, now)
    {
      Invoke(ResumeFromPowerLoss);
      var result := E_SUCCESS;
      SendEvent(Reply(ev, [result]));
      if result == E_SUCCESS {
        SaveEventSourceInfo(ev);
        ReqGcodePack(env, now);
      }
    }

    method RequestClearPowerLoss(ev: Event)
      requires Valid()
      modifies this
      ensures Valid() && Snapshot() == PrintJob.RequestClearPowerLoss(old(Snapshot()), ev)
    {
      Invoke(ClearPowerLoss);
      fileMd5, fileName := None, None;
      SendEvent(Reply(ev, [E_SUCCESS]));
    }

    method SetPrinterMode(ev: Event, env: Engine)
      requires Valid() && |ev.data| >= 1
      modifies this
      ensures Valid() && Snapshot() == PrintJob.SetPrinterMode(old(Snapshot()), ev, env)
    {
      Invoke(SetPrintMode(ev.data[0]));
      SendEvent(Reply(ev, [env.modeResult]));
    }

    method RequestAutoParkStatus(ev: Event, env: Engine)
      requires Valid()
      modifies this
      ensures Valid() && Snapshot() == PrintJob.RequestAutoParkStatus(old(Snapshot()), ev, env)
    {
      var status: byte := if env.backupMode then 1 else 0;
      SendEvent(Reply(ev, [E_SUCCESS, status]));
    }

    method SetAutoParkMode(ev: Event, env: Engine)
      requires Valid() && |ev.data| >= 1
      modifies this
      ensures Valid() && Snapshot() == PrintJob.SetAutoParkMode(old(Snapshot()), ev, env)
    {
      var mode := PRINT_BACKUP_MODE;
      if ev.data[0] != 0 {
        mode := PRINT_AUTO_PARK_MODE;
      }
      Invoke(SetPrintMode(mode));
      SendEvent(Reply(ev, [env.modeResult]));
    }

    method RequestCurLine(ev: Event, env: Engine)
      requires Valid()
      modifies this
      ensures Valid() && Snapshot() == PrintJob.RequestCurLine(old(Snapshot()), ev, env)
    {
      SendEvent(Reply(ev, [E_SUCCESS] + Le32(env.curLine)));
    }

    method RequestTemperatureLock(ev: Event)
      requires Valid() && |ev.data| >= 1
      modifies this
      ensures Valid() && Snapshot() == PrintJob.RequestTemperatureLock(old(Snapshot()), ev)
    {
      var first := ev.data[0];
      if sysStatus == Idle {
        first := 1;
      }
      SendEvent(Reply(ev, [first]));
    }

    method SetWorkFeedratePercentage(ev: Event)
      requires Valid() && |ev.data| >= 6
      modifies this
      ensures Valid() && Snapshot() == PrintJob.SetWorkFeedratePercentage(old(Snapshot()), ev)
    {
      Invoke(SetFeedrate(ev.data[2..6]));
      SendEvent(Reply(ev, [E_SUCCESS]));
    }

    /** Runs the handler `printer_cb_info` registers for the request's command. */
    method Dispatch(ev: Event, env: Engine, now: nat)
      requires Valid() && Handles(Snapshot(), ev, env)
      modifies this, duplication, dualEnableStash
      ensures Valid() && Snapshot() == PrintJob.Dispatch(old(Snapshot()), ev, env, now)
    {
      match ev.id
      case ReqFileInfo => RequestFileInfo(ev);
      case ReqGcode => GcodePackDeal(ev, env, now);
      case StartWork => RequestStartWork(ev, env, now);
      case PauseWork => RequestPauseWork(ev);
      case ResumeWork => RequestResumeWork(ev);
      case StopWork => RequestStopWork(ev);
      case ReqPowerLossStatus => RequestPowerLossStatus(ev, env);
      case PowerLossResume => RequestPowerLossResume(ev, env, now);
      case CleanPowerLossData => RequestClearPowerLoss(ev);
      case SetMode => SetPrinterMode(ev, env);
      case ReqAutoParkStatus => RequestAutoParkStatus(ev, env);
      case SetAutoParkStatus => SetAutoParkMode(ev, env);
      case StopSingleExtrude => RequestStopSingleExtrude(ev, env);
      case SetWorkPercentage => SetWorkFeedratePercentage(ev);
      case ReqLine => RequestCurLine(ev, env);
      case TemperatureLock => RequestTemperatureLock(ev);
      case ReportStatus =>
    }

    // ---------------------------------------------------------- periodic work

    method WaitPrintEnd(env: Engine)
      requires Valid()
      modifies this
      ensures Valid() && Snapshot() == PrintJob.WaitPrintEnd(old(Snapshot()), env)
    {
      if env.bufEmpty {
        reqStatus := ReqIdle;
        sysStatus, sysSource := Stopping, SourceDone;
      }
    }

    method PrintingStatusDeal(env: Engine, now: nat)
      requires Valid()
      modifies this
      ensures Valid() && Snapshot() == PrintJob.PrintingStatusDeal(old(Snapshot()), env, now)
    {
      match reqStatus
      case WaitCache => ReqGcodePack(env, now);
      case WaitRecv => GcodeReqTimeoutDeal(env, now);
      case ReqDone => WaitPrintEnd(env);
      case ReqIdle =>
    }

    method PausingStatusDeal(env: Engine, now: nat)
      requires Valid()
      modifies this
      ensures Valid() && Snapshot() == PrintJob.PausingStatusDeal(old(Snapshot()), env, now)
    {
      Invoke(Pause);
      var result := env.pauseResult;
      match sysSource
      case SourceFilament =>
        ReportStatusInfo(STATUS_PAUSE_BE_FILAMENT);
      case SourceGcode =>
        ReportStatusInfo(STATUS_PAUSE_BE_GCODE);
      case SourceToolChange =>
        Invoke(ChangeHead);
        Invoke(Resume);
        ReqGcodePack(env, now);
      case SourceStopExtrude =>
        Invoke(Resume);
        result := env.resumeResult;
        SendEvent(Message(printSource, sourceReceiverId, AttrAck, StopSingleExtrude, [result], Some(sourceSequence)));
        ReqGcodePack(env, now);
      case _ =>
        SendEvent(Message(printSource, sourceReceiverId, AttrAck, PauseWork, [result], Some(sourceSequence)));
    }

    method ResumingStatusDeal(env: Engine, now: nat)
      requires Valid()
      modifies this
      ensures Valid() && Snapshot() == PrintJob.ResumingStatusDeal(old(Snapshot()), env, now)
    {
      Invoke(Resume);
      var result := env.resumeResult;
      var data := [result] + PackRequest(env.nextLine);
      SendEvent(Message(printSource, sourceReceiverId, AttrAck, ResumeWork, data, Some(sourceSequence)));
      ReqGcodePack(env, now);
    }

    method StoppingStatusDeal(env: Engine)
      requires Valid()
      modifies this, duplication, tempLocked
      ensures Valid() && Snapshot() == PrintJob.StoppingStatusDeal(old(Snapshot()), env)
    {
      Invoke(Stop);
      var result := env.stopResult;
      for e := 0 to HOTENDS
        modifies duplication, tempLocked
        invariant forall k :: 0 <= k < e ==> duplication[k] && !tempLocked[k]
        invariant forall k :: e <= k < HOTENDS ==>
                    duplication[k] == old(duplication[k]) && tempLocked[k] == old(tempLocked[k])
      {
        duplication[e] := true;
        tempLocked[e] := false;
      }
      assert duplication[..] == seq(HOTENDS, _ => true);
      assert tempLocked[..] == seq(HOTENDS, _ => false);
      Invoke(SetFeedrateFull);
      if sysSource == SourceSacp {
        SendEvent(Message(printSource, sourceReceiverId, AttrAck, StopWork, [result], Some(sourceSequence)));
      } else {
        ReportStatusInfo(STATUS_PRINT_DONE);
      }
    }

    /** One periodic evaluation of the print job. */
    method PrinterEventLoop(env: Engine, now: nat)
      requires Valid()
      modifies this, duplication, tempLocked
      ensures Valid() && Snapshot() == PrintJob.PrinterEventLoop(old(Snapshot()), env, now)
    {
      match sysStatus
      case Printing => PrintingStatusDeal(env, now);
      case Paused =>
      case Pausing => PausingStatusDeal(env, now);
      case Resuming => ResumingStatusDeal(env, now);
      case Stopping => StoppingStatusDeal(env);
      case Idle =>
    }
  }
}

=== FILE: print_job.dfy ===
/**
 * The print-job session of event_printer.cpp as functions of its state:
 * the request handlers of `printer_cb_info`, the batch pull protocol
 * (`req_gcode_pack`, `gcode_req_timeout_deal`) and the per-state work of
 * `printer_event_loop`. Each function maps the state before a call to the
 * state after it; the class in module EventPrinter performs the same steps
 * in place and is proved to end in the state these functions give.
 *
 * The state holds the file's own globals (the session context
 * `print_source`/`source_recever_id`/`source_sequence`, the pull state
 * `gcode_req_status` and its deadline `gcode_req_timeout`), the parts of
 * the collaborators this file writes (system status and its cause, the
 * power-loss record's md5 and file name, the per-hotend duplication,
 * temperature-lock and stashed enable flags), the calls it makes into the
 * execution engine (`engineLog`) and the messages it sends (`outbox`).
 * What the collaborators answer is an `Engine` value given to each call;
 * the millisecond clock is the parameter `now`.
 */
module PrintJob {
  import opened Bytes
  import opened Options
  import opened PrinterCodec

  const GCODE_REQ_TIMEOUT_MS: nat := 2000
  /** The IDEX controller drives two hotends (`HOTEND_LOOP`). */
  const HOTENDS: nat := 2

  /** `event_source_e`: the channel a request came in on. */
  datatype EventSource = Hmi | Channel(id: byte)

  datatype SystemStatus = Idle | Printing | Pausing | Paused | Resuming | Stopping

  /** Why the system entered its current status (`SYSTEM_STATUE_SCOURCE_*`). */
  datatype StatusSource =
    | SourceSacp | SourceDone | SourceFilament | SourceGcode
    | SourceToolChange | SourceStopExtrude | SourceOther

  /** `gcode_req_status_e`. */
  datatype ReqStatus = ReqIdle | WaitRecv | WaitCache | ReqDone

  datatype Attr = AttrReq | AttrAck

  /** The `PRINTER_ID_*` commands of the printer command set. */
  datatype PrinterId =
    | ReqFileInfo | ReqGcode | StartWork | PauseWork | ResumeWork | StopWork
    | ReqPowerLossStatus | PowerLossResume | CleanPowerLossData | SetMode
    | ReqAutoParkStatus | SetAutoParkStatus | StopSingleExtrude | SetWorkPercentage
    | ReqLine | TemperatureLock | ReportStatus

  /** `event_param_t`: a request as it reaches a handler. */
  datatype Event = Event(source: EventSource, receiverId: byte, sequence: u16, id: PrinterId, data: seq<byte>)

  /** A message handed to `send_event`; a reply carries the request's sequence number. */
  datatype Message = Message(source: EventSource, receiverId: byte, attr: Attr, id: PrinterId,
                             data: seq<byte>, sequence: Option<u16>)

  /** What the collaborators report during one call. */
  datatype Engine = Engine(
    bufFree: u16, bufEmpty: bool, nextLine: u32, curLine: u32,
    startResult: byte, pauseResult: byte, resumeResult: byte, stopResult: byte, modeResult: byte,
    duplicating: bool, backupMode: bool, powerLossStatus: byte)

  /** The calls this file makes into the print controller and the power-loss record. */
  datatype EngineCall =
    | Push(startLine: u32, endLine: u32, data: seq<byte>)
    | Start | Pause | Resume | Stop | ChangeHead | ResumeFromPowerLoss | ClearPowerLoss
    | SetPrintMode(mode: byte)
    | SetFeedrate(percentage: seq<byte>)
    | SetFeedrateFull

  datatype State = State(
    printSource: EventSource, sourceReceiverId: byte, sourceSequence: u16,
    reqStatus: ReqStatus, reqTimeout: nat,
    sysStatus: SystemStatus, sysSource: StatusSource,
    fileMd5: Option<seq<byte>>, fileName: Option<seq<byte>>,
    duplication: seq<bool>, tempLocked: seq<bool>, dualEnableStash: seq<byte>,
    engineLog: seq<EngineCall>, outbox: seq<Message>)

  /** One flag per hotend, and a file identity that fits the power-loss record. */
  predicate Wf(s: State) {
    && |s.duplication| == HOTENDS && |s.tempLocked| == HOTENDS && |s.dualEnableStash| == HOTENDS
    && OptLen(s.fileMd5) <= GCODE_MD5_LENGTH && OptLen(s.fileName) <= GCODE_FILE_NAME_SIZE
  }

  /** The peer a session message goes to. */
  predicate SessionIs(s: State, ev: Event) {
    s.printSource == ev.source && s.sourceReceiverId == ev.receiverId && s.sourceSequence == ev.sequence
  }

  /** `save_event_suorce_info`. */
  function SaveSource(s: State, ev: Event): (r: State)
    ensures SessionIs(r, ev)
  {
    s.(printSource := ev.source, sourceReceiverId := ev.receiverId, sourceSequence := ev.sequence)
  }

  function Send(s: State, m: Message): State {
    s.(outbox := s.outbox + [m])
  }

  function Call(s: State, c: EngineCall): State {
    s.(engineLog := s.engineLog + [c])
  }

  /** The synchronous answer to a request: an acknowledgement to its sender with its sequence number. */
  function Reply(ev: Event, data: seq<byte>): Message {
    Message(ev.source, ev.receiverId, AttrAck, ev.id, data, Some(ev.sequence))
  }

  /** A request this side starts towards the session peer. */
  function SessionReq(s: State, id: PrinterId, data: seq<byte>): Message {
    Message(s.printSource, s.sourceReceiverId, AttrReq, id, data, None)
  }

  /** A late acknowledgement to the session peer, for the request it saved. */
  function SessionAck(s: State, id: PrinterId, data: seq<byte>): Message {
    Message(s.printSource, s.sourceReceiverId, AttrAck, id, data, Some(s.sourceSequence))
  }

  /**
   * `req_gcode_pack`: pull the next batch when the engine has room for a
   * full one, otherwise wait for room. At most one request goes out, and
   * only the pull state and the outbox change.
   */
  function ReqGcodePack(s: State, env: Engine, now: nat): (r: State)
    ensures r.reqStatus == WaitRecv <==> env.bufFree >= GCODE_MAX_PACK_SIZE
    ensures r.reqStatus == WaitRecv || r.reqStatus == WaitCache
    ensures r.reqStatus == WaitRecv ==> r.outbox == s.outbox + [SessionReq(s, ReqGcode, PackRequest(env.nextLine))]
    ensures r.reqStatus == WaitCache ==> r.outbox == s.outbox
    ensures r.reqTimeout == (if r.reqStatus == WaitRecv then now + GCODE_REQ_TIMEOUT_MS else s.reqTimeout)
    ensures r == s.(reqStatus := r.reqStatus, reqTimeout := r.reqTimeout, outbox := r.outbox)
  {
    if env.bufFree >= GCODE_MAX_PACK_SIZE then
      Send(s, SessionReq(s, ReqGcode, PackRequest(env.nextLine)))
        .(reqStatus := WaitRecv, reqTimeout := now + GCODE_REQ_TIMEOUT_MS)
    else
      s.(reqStatus := WaitCache)
  }

  /** `gcode_req_timeout_deal`: pull again once the deadline has strictly passed. */
  function GcodeReqTimeoutDeal(s: State, env: Engine, now: nat): State {
    if s.reqTimeout < now then ReqGcodePack(s, env, now) else s
  }

  /** `report_status_info`: an unsolicited status report to the session peer. */
  function ReportStatusInfo(s: State, status: byte): State {
    Send(s, SessionReq(s, ReportStatus, [status]))
  }

  // ---------------------------------------------------------------- handlers

  /** `request_file_info`: the reply always has `sizeof(gcode_file_info_t) + 1` bytes. */
  function RequestFileInfo(s: State, ev: Event): State
    requires Wf(s) && |ev.data| >= FILE_INFO_SIZE + 1
  {
    var (buf, len) := LoadFileInfo(ev.data[1..], s.fileMd5, s.fileName);
    var code := if len != 0 then E_SUCCESS else PRINT_RESULT_NO_FILE_INFO_E;
    Send(s, Reply(ev, ([code] + buf)[..FILE_INFO_SIZE + 1]))
  }

  /** `gcode_pack_deal`: hand the batch to the engine; the last one ends the pulling. */
  function GcodePackDeal(s: State, ev: Event, env: Engine, now: nat): State
    requires ParseBatch(ev.data).Some?
  {
    var b := ParseBatch(ev.data).value;
    var s1 := Call(s, Push(b.startLine, b.endLine, b.data));
    if b.flag == PRINT_RESULT_GCODE_RECV_DONE_E then s1.(reqStatus := ReqDone)
    else ReqGcodePack(s1, env, now)
  }

  /** A start payload whose identity fields are all present and fit the power-loss record. */
  predicate StartPayloadOk(data: seq<byte>) {
    && ParseFileIdentity(data).Some?
    && |ParseFileIdentity(data).value.0| <= GCODE_MD5_LENGTH
    && |ParseFileIdentity(data).value.1| <= GCODE_FILE_NAME_SIZE
  }

  /** `request_start_work`. */
  function RequestStartWork(s: State, ev: Event, env: Engine, now: nat): State
    requires env.startResult == E_SUCCESS ==> StartPayloadOk(ev.data)
  {
    var s1 := Call(s, Start);
    if env.startResult == E_SUCCESS then
      var (md5, name) := ParseFileIdentity(ev.data).value;
      var s2 := SaveSource(s1.(fileMd5 := Some(md5), fileName := Some(name)), ev);
      ReqGcodePack(Send(s2, Reply(ev, [E_SUCCESS])), env, now)
    else
      Send(s1, Reply(ev, [env.startResult]))
  }

  /** `request_pause_work`. */
  function RequestPauseWork(s: State, ev: Event): State {
    if s.sysStatus != Printing then Send(s, Reply(ev, [PRINT_RESULT_PAUSE_ERR_E]))
    else SaveSource(s.(sysStatus := Pausing, sysSource := SourceSacp, reqStatus := ReqIdle), ev)
  }

  /** `request_resume_work`. */
  function RequestResumeWork(s: State, ev: Event): State {
    if s.sysStatus != Paused then Send(s, Reply(ev, [PRINT_RESULT_RESUME_ERR_E]))
    else SaveSource(s, ev).(sysStatus := Resuming, sysSource := SourceSacp)
  }

  /** `request_stop_work`: accepted whatever the status. */
  function RequestStopWork(s: State, ev: Event): State {
    SaveSource(s.(sysStatus := Stopping, sysSource := SourceSacp, reqStatus := ReqIdle), ev)
  }

  /** A stop-single-extruder request the handler turns away. */
  predicate StopSingleRejected(s: State, env: Engine) {
    s.sysStatus == Idle && !env.duplicating
  }

  /** `request_stop_single_extrude_work`: data[0] names the hotend, data[1] the enable flag. */
  function RequestStopSingleExtrude(s: State, ev: Event, env: Engine): State
    requires Wf(s) && |ev.data| >= 2
    requires !StopSingleRejected(s, env) ==> ev.data[0] < HOTENDS
  {
    var e, en := ev.data[0], ev.data[1];
    if StopSingleRejected(s, env) then Send(s, Reply(ev, [PRINT_RESULT_START_ERR_E]))
    else
      var s1 := SaveSource(s, ev);
      if s.sysStatus != Printing then
        Send(s1.(dualEnableStash := s1.dualEnableStash[e := en]), Reply(ev, [E_SUCCESS]))
      else
        s1.(duplication := s1.duplication[e := en != 0], sysStatus := Pausing, sysSource := SourceStopExtrude)
  }

  /** `request_power_loss_status`. */
  function RequestPowerLossStatus(s: State, ev: Event, env: Engine): State
    requires Wf(s) && |ev.data| >= FILE_INFO_SIZE + 1
  {
    var code := env.powerLossStatus;
    if code == E_SUCCESS then
      var (buf, len) := LoadFileInfo(ev.data[1..], s.fileMd5, s.fileName);
      Send(s, Reply(ev, ([code] + buf)[..len + 1]))
    else
      Send(s, Reply(ev, [code] + ev.data[1..5]))
  }

  /** `request_power_loss_resume`: the engine's answer is overwritten by E_SUCCESS. */
  function RequestPowerLossResume(s: State, ev: Event, env: Engine, now: nat): State {
    var s1 := Send(Call(s, ResumeFromPowerLoss), Reply(ev, [E_SUCCESS]));
    ReqGcodePack(SaveSource(s1, ev), env, now)
  }

  /** `request_clear_power_loss`. */
  function RequestClearPowerLoss(s: State, ev: Event): State {
    Send(Call(s, ClearPowerLoss).(fileMd5 := None, fileName := None), Reply(ev, [E_SUCCESS]))
  }

  /** `set_printer_mode`. */
  function SetPrinterMode(s: State, ev: Event, env: Engine): State
    requires |ev.data| >= 1
  {
    Send(Call(s, SetPrintMode(ev.data[0])), Reply(ev, [env.modeResult]))
  }

  /** `request_auto_pack_status`. */
  function RequestAutoParkStatus(s: State, ev: Event, env: Engine): State {
    Send(s, Reply(ev, [E_SUCCESS, if env.backupMode then 1 else 0]))
  }

  /** `set_auto_pack_mode`: any non-zero byte selects auto-park, zero selects backup. */
  function SetAutoParkMode(s: State, ev: Event, env: Engine): State
    requires |ev.data| >= 1
  {
    var mode := if ev.data[0] != 0 then PRINT_AUTO_PARK_MODE else PRINT_BACKUP_MODE;
    Send(Call(s, SetPrintMode(mode)), Reply(ev, [env.modeResult]))
  }

  /** `request_cur_line`. */
  function RequestCurLine(s: State, ev: Event, env: Engine): State {
    Send(s, Reply(ev, [E_SUCCESS] + Le32(env.curLine)))
  }

  /** `request_temperature_lock`: 1 when idle, otherwise the request's own first byte. */
  function RequestTemperatureLock(s: State, ev: Event): State
    requires |ev.data| >= 1
  {
    Send(s, Reply(ev, [if s.sysStatus == Idle then 1 else ev.data[0]]))
  }

  /** `set_work_feedrate_percentage`: the percentage's four bytes follow `key` and `e_index`. */
  function SetWorkFeedratePercentage(s: State, ev: Event): State
    requires |ev.data| >= 6
  {
    Send(Call(s, SetFeedrate(ev.data[2..6])), Reply(ev, [E_SUCCESS]))
  }

  // ------------------------------------------------------------ dispatching

  datatype RunMode = DirectRun | TaskRun

  /** `printer_cb_info`: each command and how its handler is scheduled. */
  const PRINTER_CB_INFO: seq<(PrinterId, RunMode)> := [
    (ReqFileInfo, DirectRun), (ReqGcode, TaskRun), (StartWork, TaskRun),
    (PauseWork, DirectRun), (ResumeWork, DirectRun), (StopWork, TaskRun),
    (ReqPowerLossStatus, DirectRun), (PowerLossResume, TaskRun),
    (CleanPowerLossData, TaskRun), (SetMode, TaskRun), (ReqAutoParkStatus, DirectRun),
    (SetAutoParkStatus, TaskRun), (StopSingleExtrude, DirectRun),
    (SetWorkPercentage, DirectRun), (ReqLine, DirectRun), (TemperatureLock, DirectRun)]

  /** The first table entry for a command. */
  function Lookup(table: seq<(PrinterId, RunMode)>, id: PrinterId): (r: Option<RunMode>)
    ensures r.Some? <==> exists i :: 0 <= i < |table| && table[i].0 == id
    ensures r.Some? ==>
              exists i :: && 0 <= i < |table| && table[i] == (id, r.value)
                          && forall j :: 0 <= j < i ==> table[j].0 != id
  {
    if |table| == 0 then None
    else if table[0].0 == id then Some(table[0].1)
    else
      var r := Lookup(table[1..], id);
      assert forall i :: 0 < i < |table| ==> table[i] == table[1..][i - 1];
      r
  }

  /** What each handler needs of the request buffer and the state it reads. */
  predicate Handles(s: State, ev: Event, env: Engine) {
    match ev.id
    case ReqFileInfo => Wf(s) && |ev.data| >= FILE_INFO_SIZE + 1
    case ReqGcode => ParseBatch(ev.data).Some?
    case StartWork => env.startResult == E_SUCCESS ==> StartPayloadOk(ev.data)
    case ReqPowerLossStatus => Wf(s) && |ev.data| >= FILE_INFO_SIZE + 1
    case SetMode => |ev.data| >= 1
    case SetAutoParkStatus => |ev.data| >= 1
    case StopSingleExtrude =>
      Wf(s) && |ev.data| >= 2 && (!StopSingleRejected(s, env) ==> ev.data[0] < HOTENDS)
    case SetWorkPercentage => |ev.data| >= 6
    case TemperatureLock => |ev.data| >= 1
    case _ => true
  }

  /** The handler the table registers for the request's command; none for a status report. */
  function Dispatch(s: State, ev: Event, env: Engine, now: nat): State
    requires Handles(s, ev, env)
  {
    match ev.id
    case ReqFileInfo => RequestFileInfo(s, ev)
    case ReqGcode => GcodePackDeal(s, ev, env, now)
    case StartWork => RequestStartWork(s, ev, env, now)
    case PauseWork => RequestPauseWork(s, ev)
    case ResumeWork => RequestResumeWork(s, ev)
    case StopWork => RequestStopWork(s, ev)
    case ReqPowerLossStatus => RequestPowerLossStatus(s, ev, env)
    case PowerLossResume => RequestPowerLossResume(s, ev, env, now)
    case CleanPowerLossData => RequestClearPowerLoss(s, ev)
    case SetMode => SetPrinterMode(s, ev, env)
    case ReqAutoParkStatus => RequestAutoParkStatus(s, ev, env)
    case SetAutoParkStatus => SetAutoParkMode(s, ev, env)
    case StopSingleExtrude => RequestStopSingleExtrude(s, ev, env)
    case SetWorkPercentage => SetWorkFeedratePercentage(s, ev)
    case ReqLine => RequestCurLine(s, ev, env)
    case TemperatureLock => RequestTemperatureLock(s, ev)
    case ReportStatus => s
  }

  // --------------------------------------------------------- periodic work

  /** `wait_print_end`: once the engine has drained its buffer the job stops as done. */
  function WaitPrintEnd(s: State, env: Engine): State {
    if env.bufEmpty then s.(reqStatus := ReqIdle, sysStatus := Stopping, sysSource := SourceDone)
    else s
  }

  /** `printing_status_deal`. */
  function PrintingStatusDeal(s: State, env: Engine, now: nat): State {
    match s.reqStatus
    case WaitCache => ReqGcodePack(s, env, now)
    case WaitRecv => GcodeReqTimeoutDeal(s, env, now)
    case ReqDone => WaitPrintEnd(s, env)
    case ReqIdle => s
  }

  /** `pausing_status_deal`: pause the engine, then act on why the pause was asked for. */
  function PausingStatusDeal(s: State, env: Engine, now: nat): State {
    var s1 := Call(s, Pause);
    match s.sysSource
    case SourceFilament => ReportStatusInfo(s1, STATUS_PAUSE_BE_FILAMENT)
    case SourceGcode => ReportStatusInfo(s1, STATUS_PAUSE_BE_GCODE)
    case SourceToolChange => ReqGcodePack(Call(Call(s1, ChangeHead), Resume), env, now)
    case SourceStopExtrude =>
      var s2 := Call(s1, Resume);
      ReqGcodePack(Send(s2, SessionAck(s2, StopSingleExtrude, [env.resumeResult])), env, now)
    case _ => Send(s1, SessionAck(s1, PauseWork, [env.pauseResult]))
  }

  /** `resuming_status_deal`: the acknowledgement names the line printing resumes from. */
  function ResumingStatusDeal(s: State, env: Engine, now: nat): State {
    var s1 := Call(s, Resume);
    var s2 := Send(s1, SessionAck(s1, ResumeWork, [env.resumeResult] + PackRequest(env.nextLine)));
    ReqGcodePack(s2, env, now)
  }

  /**
   * `stopping_status_deal`: stop the engine, re-enable duplication and
   * unlock the temperature of every hotend, restore the full feedrate, and
   * tell the session peer: an acknowledgement when it asked for the stop,
   * a print-done report otherwise.
   */
  function StoppingStatusDeal(s: State, env: Engine): State {
    var s1 := Call(s, Stop).(duplication := seq(HOTENDS, _ => true), tempLocked := seq(HOTENDS, _ => false));
    var s2 := Call(s1, SetFeedrateFull);
    if s.sysSource == SourceSacp then Send(s2, SessionAck(s2, StopWork, [env.stopResult]))
    else ReportStatusInfo(s2, STATUS_PRINT_DONE)
  }

  /** `printer_event_loop`: one periodic evaluation; idle and paused do nothing here. */
  function PrinterEventLoop(s: State, env: Engine, now: nat): State {
    match s.sysStatus
    case Printing => PrintingStatusDeal(s, env, now)
    case Paused => s
    case Pausing => PausingStatusDeal(s, env, now)
    case Resuming => ResumingStatusDeal(s, env, now)
    case Stopping => StoppingStatusDeal(s, env)
    case Idle => s
  }
}

=== FILE: print_job_properties.dfy ===
/**
 * What the print-job session promises across calls: how batches are
 * pulled (only with room for a full batch, retried only after the
 * deadline, at most one pull per step), where late acknowledgements go
 * (to the peer of the last accepted request, with its sequence number),
 * how a job ends, and that the file identity a start request carries is
 * what later replies report.
 */
module PrintJobProperties {
  import opened Bytes
  import opened Options
  import opened PrinterCodec
  import opened PrintJob

  /** A pull request for the next batch. */
  predicate IsPull(m: Message) {
    m.attr == AttrReq && m.id == ReqGcode
  }

  function PullCount(ms: seq<Message>): nat {
    if |ms| == 0 then 0 else PullCount(ms[..|ms| - 1]) + (if IsPull(ms[|ms| - 1]) then 1 else 0)
  }

  lemma {:induction false} PullCountAppend(a: seq<Message>, b: seq<Message>)
    ensures PullCount(a + b) == PullCount(a) + PullCount(b)
  {
    if |b| == 0 {
      assert a + b == a;
    } else {
      var c := b[..|b| - 1];
      assert (a + b)[..|a + b| - 1] == a + c;
      assert (a + b)[|a + b| - 1] == b[|b| - 1];
      PullCountAppend(a, c);
    }
  }

  /**
   * A step appends to the outbox, at most one of the appended messages is
   * a pull, and a step that does pull arms the deadline 2000 ms on: the
   * host never has two batch requests to answer from one step, and every
   * pull is covered by its own timeout.
   */
  predicate PullsAtMostOnce(s: State, r: State, now: nat) {
    && |s.outbox| <= |r.outbox| && r.outbox[..|s.outbox|] == s.outbox
    && PullCount(r.outbox) <= PullCount(s.outbox) + 1
    && (PullCount(r.outbox) == PullCount(s.outbox) + 1 ==>
          r.reqStatus == WaitRecv && r.reqTimeout == now + GCODE_REQ_TIMEOUT_MS)
  }

  /** Closes `PullsAtMostOnce` from the shape of what a step appended. */
  lemma PullsFromAdded(s: State, r: State, now: nat, added: seq<Message>)
    requires r.outbox == s.outbox + added
    requires |added| <= 2
    requires |added| == 2 ==> !IsPull(added[0])
    requires forall i :: 0 <= i < |added| && IsPull(added[i]) ==>
               r.reqStatus == WaitRecv && r.reqTimeout == now + GCODE_REQ_TIMEOUT_MS
    ensures PullsAtMostOnce(s, r, now)
  {
    PullCountAppend(s.outbox, added);
    assert r.outbox[..|s.outbox|] == s.outbox;
    if |added| == 0 {
      assert PullCount(added) == 0;
    } else if |added| == 1 {
      assert added == [added[0]] && added[..0] == [];
    } else {
      assert added[..1] == [added[0]] && [added[0]][..0] == [];
      assert PullCount(added) == PullCount([added[0]]) + (if IsPull(added[1]) then 1 else 0);
    }
  }

  /** A pull step after some replies were appended: the replies, then the pull if there is room. */
  lemma PullAfter(s: State, pre: seq<Message>, env: Engine, now: nat)
    requires forall i :: 0 <= i < |pre| ==> !IsPull(pre[i])
    requires |pre| <= 1
    ensures PullsAtMostOnce(s, ReqGcodePack(s.(outbox := s.outbox + pre), env, now), now)
  {
    var s1 := s.(outbox := s.outbox + pre);
    var r := ReqGcodePack(s1, env, now);
    if env.bufFree >= GCODE_MAX_PACK_SIZE {
      var m := SessionReq(s1, ReqGcode, PackRequest(env.nextLine));
      assert r.outbox == s.outbox + (pre + [m]);
      PullsFromAdded(s, r, now, pre + [m]);
    } else {
      PullsFromAdded(s, r, now, pre);
    }
  }

  lemma GcodePackDealPullsAtMostOnce(s: State, ev: Event, env: Engine, now: nat)
    requires ParseBatch(ev.data).Some?
    ensures PullsAtMostOnce(s, GcodePackDeal(s, ev, env, now), now)
  {
    var b := ParseBatch(ev.data).value;
    var s1 := Call(s, Push(b.startLine, b.endLine, b.data));
    if b.flag == PRINT_RESULT_GCODE_RECV_DONE_E {
      PullsFromAdded(s, GcodePackDeal(s, ev, env, now), now, []);
    } else {
      assert s1.(outbox := s1.outbox + []) == s1;
      PullAfter(s1, [], env, now);
    }
  }

  lemma StartWorkPullsAtMostOnce(s: State, ev: Event, env: Engine, now: nat)
    requires env.startResult == E_SUCCESS ==> StartPayloadOk(ev.data)
    ensures PullsAtMostOnce(s, RequestStartWork(s, ev, env, now), now)
  {
    var r := RequestStartWork(s, ev, env, now);
    if env.startResult == E_SUCCESS {
      var (md5, name) := ParseFileIdentity(ev.data).value;
      var s2 := SaveSource(Call(s, Start).(fileMd5 := Some(md5), fileName := Some(name)), ev);
      PullAfter(s2, [Reply(ev, [E_SUCCESS])], env, now);
    } else {
      PullsFromAdded(s, r, now, [Reply(ev, [env.startResult])]);
    }
  }

  lemma PowerLossResumePullsAtMostOnce(s: State, ev: Event, env: Engine, now: nat)
    ensures PullsAtMostOnce(s, RequestPowerLossResume(s, ev, env, now), now)
  {
    var s1 := SaveSource(Call(s, ResumeFromPowerLoss), ev);
    PullAfter(s1, [Reply(ev, [E_SUCCESS])], env, now);
  }

  /**
   * Every handler but the batch, start and power-loss-resume ones appends
   * at most its own acknowledgement, so it never pulls.
   */
  lemma ReplyingHandlersDoNotPull(s: State, ev: Event, env: Engine, now: nat)
    requires Handles(s, ev, env)
    requires ev.id != ReqGcode && ev.id != StartWork && ev.id != PowerLossResume
    ensures var r := Dispatch(s, ev, env, now);
            || r.outbox == s.outbox
            || (&& |r.outbox| == |s.outbox| + 1 && r.outbox[..|s.outbox|] == s.outbox
                && r.outbox[|s.outbox|].attr == AttrAck)
    ensures PullCount(Dispatch(s, ev, env, now).outbox) == PullCount(s.outbox)
    ensures PullsAtMostOnce(s, Dispatch(s, ev, env, now), now)
  {
    var r := Dispatch(s, ev, env, now);
    assert r.outbox == s.outbox || (|r.outbox| == |s.outbox| + 1 && r.outbox[..|s.outbox|] == s.outbox && r.outbox[|s.outbox|].attr == AttrAck);
    if r.outbox == s.outbox {
      PullsFromAdded(s, r, now, []);
    } else {
      var m := r.outbox[|s.outbox|];
      assert r.outbox == s.outbox + [m];
      PullsFromAdded(s, r, now, [m]);
      PullCountAppend(s.outbox, [m]);
      assert [m][..0] == [];
    }
  }

  /** Every request handler pulls at most once and arms the deadline when it does. */
  lemma DispatchPullsAtMostOnce(s: State, ev: Event, env: Engine, now: nat)
    requires Handles(s, ev, env)
    ensures PullsAtMostOnce(s, Dispatch(s, ev, env, now), now)
  {
    if ev.id == ReqGcode {
      GcodePackDealPullsAtMostOnce(s, ev, env, now);
    } else if ev.id == StartWork {
      StartWorkPullsAtMostOnce(s, ev, env, now);
    } else if ev.id == PowerLossResume {
      PowerLossResumePullsAtMostOnce(s, ev, env, now);
    } else {
      ReplyingHandlersDoNotPull(s, ev, env, now);
    }
  }

  lemma PausingPullsAtMostOnce(s: State, env: Engine, now: nat)
    ensures PullsAtMostOnce(s, PausingStatusDeal(s, env, now), now)
  {
    var r := PausingStatusDeal(s, env, now);
    var s1 := Call(s, Pause);
    match s.sysSource {
      case SourceFilament =>
        PullsFromAdded(s, r, now, [SessionReq(s1, ReportStatus, [STATUS_PAUSE_BE_FILAMENT])]);
      case SourceGcode =>
        PullsFromAdded(s, r, now, [SessionReq(s1, ReportStatus, [STATUS_PAUSE_BE_GCODE])]);
      case SourceToolChange =>
        var s2 := Call(Call(s1, ChangeHead), Resume);
        assert s2.(outbox := s2.outbox + []) == s2;
        PullAfter(s2, [], env, now);
      case SourceStopExtrude =>
        var s2 := Call(s1, Resume);
        PullAfter(s2, [SessionAck(s2, StopSingleExtrude, [env.resumeResult])], env, now);
      case _ =>
        PullsFromAdded(s, r, now, [SessionAck(s1, PauseWork, [env.pauseResult])]);
    }
  }

  /** Every periodic evaluation pulls at most once and arms the deadline when it does. */
  lemma EventLoopPullsAtMostOnce(s: State, env: Engine, now: nat)
    ensures PullsAtMostOnce(s, PrinterEventLoop(s, env, now), now)
  {
    var r := PrinterEventLoop(s, env, now);
    match s.sysStatus {
      case Printing =>
        if s.reqStatus == WaitCache || (s.reqStatus == WaitRecv && s.reqTimeout < now) {
          assert s.(outbox := s.outbox + []) == s;
          PullAfter(s, [], env, now);
        } else if s.reqStatus == ReqDone {
          PullsFromAdded(s, r, now, []);
        } else {
          PullsFromAdded(s, r, now, []);
        }
      case Pausing =>
        PausingPullsAtMostOnce(s, env, now);
      case Resuming =>
        var s1 := Call(s, Resume);
        PullAfter(s1, [SessionAck(s1, ResumeWork, [env.resumeResult] + PackRequest(env.nextLine))], env, now);
      case Stopping =>
        assert |r.outbox| == |s.outbox| + 1 && r.outbox[..|s.outbox|] == s.outbox;
        var m := r.outbox[|s.outbox|];
        assert r.outbox == s.outbox + [m];
        PullsFromAdded(s, r, now, [m]);
      case Paused =>
        PullsFromAdded(s, r, now, []);
      case Idle =>
        PullsFromAdded(s, r, now, []);
    }
  }

  /** The index of a command's entry in `printer_cb_info`. */
  function TableIndex(id: PrinterId): nat {
    match id
    case ReqFileInfo => 0
    case ReqGcode => 1
    case StartWork => 2
    case PauseWork => 3
    case ResumeWork => 4
    case StopWork => 5
    case ReqPowerLossStatus => 6
    case PowerLossResume => 7
    case CleanPowerLossData => 8
    case SetMode => 9
    case ReqAutoParkStatus => 10
    case SetAutoParkStatus => 11
    case StopSingleExtrude => 12
    case SetWorkPercentage => 13
    case ReqLine => 14
    case TemperatureLock => 15
    case ReportStatus => 16
  }

  /** `printer_cb_info` registers every command but the status report, each exactly once. */
  lemma CallbackTableComplete()
    ensures forall i, j :: 0 <= i < j < |PRINTER_CB_INFO| ==> PRINTER_CB_INFO[i].0 != PRINTER_CB_INFO[j].0
    ensures forall id :: Lookup(PRINTER_CB_INFO, id).Some? <==> id != ReportStatus
  {
    var t := PRINTER_CB_INFO;
    assert forall i :: 0 <= i < |t| ==> TableIndex(t[i].0) == i;
    forall id | id != ReportStatus
      ensures Lookup(t, id).Some?
    {
      assert t[TableIndex(id)].0 == id;
    }
  }

  /** Request handlers keep the per-hotend flags and the file identity well formed. */
  lemma DispatchKeepsWf(s: State, ev: Event, env: Engine, now: nat)
    requires Wf(s) && Handles(s, ev, env)
    ensures Wf(Dispatch(s, ev, env, now))
  {
    if ev.id == StartWork && env.startResult == E_SUCCESS {
      var r := RequestStartWork(s, ev, env, now);
      assert r.fileMd5 == Some(ParseFileIdentity(ev.data).value.0);
    }
  }

  /** Periodic evaluations keep the per-hotend flags and the file identity well formed. */
  lemma EventLoopKeepsWf(s: State, env: Engine, now: nat)
    requires Wf(s)
    ensures Wf(PrinterEventLoop(s, env, now))
  {
  }

  // ------------------------------------------------------------ streaming

  /**
   * Back-pressure: while the pull waits for room, a printing evaluation
   * changes nothing until the engine can take a full batch, and then sends
   * exactly one pull for the engine's next line.
   */
  lemma PullWaitsForRoom(s: State, env: Engine, now: nat)
    requires s.sysStatus == Printing && s.reqStatus == WaitCache
    ensures var r := PrinterEventLoop(s, env, now);
            if env.bufFree < GCODE_MAX_PACK_SIZE then r == s
            else && r.outbox == s.outbox + [SessionReq(s, ReqGcode, PackRequest(env.nextLine))]
                 && r.reqStatus == WaitRecv && r.reqTimeout == now + GCODE_REQ_TIMEOUT_MS
  {
  }

  /**
   * Retry: while a pull is outstanding, an evaluation at or before the
   * deadline changes nothing, whatever the engine reports. One strictly
   * after it pulls again for the engine's next line (the same line while no
   * batch arrived) when the engine has room, and otherwise goes back to
   * waiting for room without sending anything.
   */
  lemma PullRetriedOnlyAfterDeadline(s: State, env: Engine, now: nat)
    requires s.sysStatus == Printing && s.reqStatus == WaitRecv
    ensures var r := PrinterEventLoop(s, env, now);
            if now <= s.reqTimeout then r == s
            else if env.bufFree < GCODE_MAX_PACK_SIZE then r == s.(reqStatus := WaitCache)
            else && r.outbox == s.outbox + [SessionReq(s, ReqGcode, PackRequest(env.nextLine))]
                 && r.reqStatus == WaitRecv && r.reqTimeout == now + GCODE_REQ_TIMEOUT_MS
  {
  }

  /**
   * After a retry at t1 that pulled, no further pull goes out before the
   * new deadline has passed, whatever the engine reports at t2; a retry
   * without room sends nothing and waits for room.
   */
  lemma OnePullPerTimeout(s: State, env: Engine, later: Engine, t1: nat, t2: nat)
    requires s.sysStatus == Printing && s.reqStatus == WaitRecv && s.reqTimeout < t1
    requires t2 <= t1 + GCODE_REQ_TIMEOUT_MS
    ensures var s1 := PrinterEventLoop(s, env, t1);
            && s1.outbox == s.outbox + PullIfRoom(s, env)
            && (env.bufFree >= GCODE_MAX_PACK_SIZE ==> PrinterEventLoop(s1, later, t2) == s1)
            && (env.bufFree < GCODE_MAX_PACK_SIZE ==> s1.reqStatus == WaitCache)
  {
  }

  /**
   * A batch that is not the last is pushed to the engine and the next one
   * is pulled at once: with room for a full batch exactly one pull for the
   * engine's next line goes to the session peer and the deadline is armed;
   * without room nothing is sent and the pulling waits for room.
   */
  lemma NextBatchPulledAtOnce(s: State, ev: Event, env: Engine, now: nat)
    requires ParseBatch(ev.data).Some? && ParseBatch(ev.data).value.flag != PRINT_RESULT_GCODE_RECV_DONE_E
    ensures var b := ParseBatch(ev.data).value;
            var r := GcodePackDeal(s, ev, env, now);
            && r.engineLog == s.engineLog + [Push(b.startLine, b.endLine, b.data)]
            && r.outbox == s.outbox + PullIfRoom(s, env)
            && (if env.bufFree >= GCODE_MAX_PACK_SIZE
                then r.reqStatus == WaitRecv && r.reqTimeout == now + GCODE_REQ_TIMEOUT_MS
                else r.reqStatus == WaitCache && r.reqTimeout == s.reqTimeout)
            && r == s.(engineLog := r.engineLog, reqStatus := r.reqStatus, reqTimeout := r.reqTimeout,
                       outbox := r.outbox)
  {
  }

  /**
   * End of a job: the batch flagged as the last is still pushed, and no
   * pull follows; evaluations change nothing while the engine still holds
   * instructions; once it is empty the job goes to STOPPING as done, and
   * the next evaluation reports PRINT_DONE to the session peer instead of
   * acknowledging a stop.
   */
  lemma LastBatchEndsJob(s: State, ev: Event, env: Engine, now: nat, later: Engine)
    requires Wf(s) && s.sysStatus == Printing
    requires ParseBatch(ev.data).Some? && ParseBatch(ev.data).value.flag == PRINT_RESULT_GCODE_RECV_DONE_E
    ensures var b := ParseBatch(ev.data).value;
            var s1 := GcodePackDeal(s, ev, env, now);
            && s1.engineLog == s.engineLog + [Push(b.startLine, b.endLine, b.data)]
            && s1.outbox == s.outbox && s1.reqStatus == ReqDone
            && (!later.bufEmpty ==> PrinterEventLoop(s1, later, now) == s1)
            && (later.bufEmpty ==>
                  var s2 := PrinterEventLoop(s1, later, now);
                  && s2.sysStatus == Stopping && s2.sysSource == SourceDone && s2.reqStatus == ReqIdle
                  && PrinterEventLoop(s2, later, now).outbox ==
                       s.outbox + [Message(s.printSource, s.sourceReceiverId, AttrReq, ReportStatus, [STATUS_PRINT_DONE], None)])
  {
  }

  // ------------------------------------------------------- acknowledgements

  /** A request turned away for the system's status changes nothing but the reply it gets. */
  lemma RejectedRequestsChangeNothing(s: State, ev: Event, env: Engine)
    requires Wf(s) && |ev.data| >= 2
    ensures s.sysStatus != Printing ==>
              RequestPauseWork(s, ev) == s.(outbox := s.outbox + [Reply(ev, [PRINT_RESULT_PAUSE_ERR_E])])
    ensures s.sysStatus != Paused ==>
              RequestResumeWork(s, ev) == s.(outbox := s.outbox + [Reply(ev, [PRINT_RESULT_RESUME_ERR_E])])
    ensures StopSingleRejected(s, env) ==>
              RequestStopSingleExtrude(s, ev, env) == s.(outbox := s.outbox + [Reply(ev, [PRINT_RESULT_START_ERR_E])])
  {
  }

  /**
   * Each accepted state-changing request takes the session over, whatever
   * it was, moves the job to its status with cause SACP and sends nothing
   * yet; pause and stop also stop the pulling.
   */
  lemma AcceptedRequestsTakeSession(s: State, ev: Event)
    ensures s.sysStatus == Printing ==>
              var r := RequestPauseWork(s, ev);
              && SessionIs(r, ev) && r.sysStatus == Pausing && r.sysSource == SourceSacp
              && r.reqStatus == ReqIdle && r.outbox == s.outbox
    ensures s.sysStatus == Paused ==>
              var r := RequestResumeWork(s, ev);
              && SessionIs(r, ev) && r.sysStatus == Resuming && r.sysSource == SourceSacp
              && r.reqStatus == s.reqStatus && r.outbox == s.outbox
    ensures var r := RequestStopWork(s, ev);
            && SessionIs(r, ev) && r.sysStatus == Stopping && r.sysSource == SourceSacp
            && r.reqStatus == ReqIdle && r.outbox == s.outbox
  {
  }

  /**
   * A successful start records md5 = data[2 .. 2+L1) and name =
   * data[L1+4 .. L1+4+L2), with L1 and L2 the little-endian lengths at
   * data[0..2) and data[L1+2 .. L1+4), takes the session and replies
   * E_SUCCESS before pulling. A failed start only calls the engine and
   * replies with its result: the recorded identity and the session stay.
   */
  lemma StartStoresIdentity(s: State, ev: Event, env: Engine, now: nat)
    requires env.startResult == E_SUCCESS ==> StartPayloadOk(ev.data)
    ensures var r := RequestStartWork(s, ev, env, now);
            if env.startResult == E_SUCCESS then
              && 2 <= |ev.data|
              && var l1 := ReadLe16(ev.data, 0);
                 && l1 + 4 <= |ev.data|
                 && var l2 := ReadLe16(ev.data, l1 + 2);
                    && l1 + 4 + l2 <= |ev.data|
                    && r.fileMd5 == Some(ev.data[2..2 + l1])
                    && r.fileName == Some(ev.data[l1 + 4..l1 + 4 + l2])
                    && SessionIs(r, ev)
                    && |r.outbox| > |s.outbox| && r.outbox[|s.outbox|] == Reply(ev, [E_SUCCESS])
            else
              r == s.(engineLog := s.engineLog + [Start], outbox := s.outbox + [Reply(ev, [env.startResult])])
  {
  }

  /** The pull `req_gcode_pack` sends from `s`, when the engine has room for a full batch. */
  function PullIfRoom(s: State, env: Engine): seq<Message> {
    if env.bufFree >= GCODE_MAX_PACK_SIZE then [SessionReq(s, ReqGcode, PackRequest(env.nextLine))] else []
  }

  /**
   * Completing a pause always pauses the engine first; then each cause has
   * its own outcome. A filament or G-code pause only reports its reason.
   * A tool-change pause changes the head, resumes and pulls. A
   * single-extruder pause resumes, acknowledges the request with the resume
   * result and pulls. Any other pause acknowledges PAUSE_WORK with the
   * engine's pause result and the saved sequence number.
   */
  lemma PauseOutcomeByCause(s: State, env: Engine, now: nat)
    requires s.sysStatus == Pausing
    ensures var r := PrinterEventLoop(s, env, now);
            var paused := s.engineLog + [Pause];
            match s.sysSource
            case SourceFilament =>
              r == s.(engineLog := paused, outbox := s.outbox + [SessionReq(s, ReportStatus, [STATUS_PAUSE_BE_FILAMENT])])
            case SourceGcode =>
              r == s.(engineLog := paused, outbox := s.outbox + [SessionReq(s, ReportStatus, [STATUS_PAUSE_BE_GCODE])])
            case SourceToolChange =>
              && r.engineLog == paused + [ChangeHead, Resume]
              && r.outbox == s.outbox + PullIfRoom(s, env)
              && r.reqStatus == (if env.bufFree >= GCODE_MAX_PACK_SIZE then WaitRecv else WaitCache)
            case SourceStopExtrude =>
              && r.engineLog == paused + [Resume]
              && r.outbox == s.outbox + [SessionAck(s, StopSingleExtrude, [env.resumeResult])] + PullIfRoom(s, env)
              && r.reqStatus == (if env.bufFree >= GCODE_MAX_PACK_SIZE then WaitRecv else WaitCache)
            case _ =>
              r == s.(engineLog := paused, outbox := s.outbox + [SessionAck(s, PauseWork, [env.pauseResult])])
  {
  }

  /**
   * A printing evaluation with no pull outstanding or waiting for room:
   * with the pulling idle nothing happens; after the last batch nothing
   * happens until the engine has drained, and then the job stops as done.
   */
  lemma PrintingTickWithoutPull(s: State, env: Engine, now: nat)
    requires s.sysStatus == Printing
    ensures s.reqStatus == ReqIdle ==> PrinterEventLoop(s, env, now) == s
    ensures s.reqStatus == ReqDone && !env.bufEmpty ==> PrinterEventLoop(s, env, now) == s
    ensures s.reqStatus == ReqDone && env.bufEmpty ==>
              PrinterEventLoop(s, env, now) == s.(reqStatus := ReqIdle, sysStatus := Stopping, sysSource := SourceDone)
  {
  }

  /**
   * An accepted pause is acknowledged on the next evaluation, to the peer
   * that asked and with its sequence number, carrying the engine's pause
   * result; pulling stops meanwhile.
   */
  lemma PauseAckedToRequester(s: State, ev: Event, env: Engine, now: nat)
    requires s.sysStatus == Printing
    ensures var s1 := RequestPauseWork(s, ev);
            var s2 := PrinterEventLoop(s1, env, now);
            && s1.outbox == s.outbox && s1.sysStatus == Pausing && s1.reqStatus == ReqIdle
            && s2.outbox == s.outbox + [Message(ev.source, ev.receiverId, AttrAck, PauseWork, [env.pauseResult], Some(ev.sequence))]
            && s2.engineLog == s.engineLog + [Pause]
  {
  }

  /**
   * An accepted resume is acknowledged on the next evaluation to the peer
   * that asked, and the acknowledgement names the same line the pull that
   * follows it asks for.
   */
  lemma ResumeAckedToRequester(s: State, ev: Event, env: Engine, now: nat)
    requires s.sysStatus == Paused
    ensures var s2 := PrinterEventLoop(RequestResumeWork(s, ev), env, now);
            && s2.engineLog == s.engineLog + [Resume]
            && s2.outbox == s.outbox + [
                 Message(ev.source, ev.receiverId, AttrAck, ResumeWork, [env.resumeResult] + PackRequest(env.nextLine), Some(ev.sequence))]
                 + PullIfRoom(SaveSource(s, ev), env)
            && s2.reqStatus == (if env.bufFree >= GCODE_MAX_PACK_SIZE then WaitRecv else WaitCache)
    ensures env.bufFree >= GCODE_MAX_PACK_SIZE ==>
              var s2 := PrinterEventLoop(RequestResumeWork(s, ev), env, now);
              && |s2.outbox| == |s.outbox| + 2
              && s2.outbox[|s.outbox| + 1] == Message(ev.source, ev.receiverId, AttrReq, ReqGcode, PackRequest(env.nextLine), None)
              && s2.outbox[|s.outbox|].data[1..] == s2.outbox[|s.outbox| + 1].data
  {
  }

  /**
   * A stop is accepted in every status, including IDLE. The next
   * evaluation stops the engine, re-enables duplication and unlocks the
   * temperature of every hotend, restores the full feedrate and
   * acknowledges the stop to the peer that asked.
   */
  lemma StopAckedToRequester(s: State, ev: Event, env: Engine, now: nat)
    ensures var s1 := RequestStopWork(s, ev);
            var s2 := PrinterEventLoop(s1, env, now);
            && s1.sysStatus == Stopping && s1.reqStatus == ReqIdle && SessionIs(s1, ev)
            && s2.outbox == s.outbox + [Message(ev.source, ev.receiverId, AttrAck, StopWork, [env.stopResult], Some(ev.sequence))]
            && s2.engineLog == s.engineLog + [Stop, SetFeedrateFull]
            && (forall e :: 0 <= e < HOTENDS ==> s2.duplication[e] && !s2.tempLocked[e])
  {
  }

  /**
   * The last accepted request owns the session: a stop that arrives while
   * an accepted pause is still pending takes the session over, and its
   * requester alone is answered; the pause is never acknowledged.
   */
  lemma LaterStopTakesSession(s: State, pause: Event, stop: Event, env: Engine, now: nat)
    requires s.sysStatus == Printing
    ensures var s2 := RequestStopWork(RequestPauseWork(s, pause), stop);
            PrinterEventLoop(s2, env, now).outbox ==
              s.outbox + [Message(stop.source, stop.receiverId, AttrAck, StopWork, [env.stopResult], Some(stop.sequence))]
  {
  }

  /**
   * A stop that arrives while a tool-change pause is pending wins: the next
   * evaluation stops the job and acknowledges the stop; the engine is
   * neither paused nor resumed and no batch is pulled. Without the stop,
   * that evaluation would have changed the head, resumed and pulled.
   */
  lemma StopOverridesToolChange(s: State, ev: Event, env: Engine, now: nat)
    requires s.sysStatus == Pausing && s.sysSource == SourceToolChange
    ensures PrinterEventLoop(s, env, now).engineLog == s.engineLog + [Pause, ChangeHead, Resume]
    ensures PrinterEventLoop(s, env, now).outbox == s.outbox + PullIfRoom(s, env)
    ensures var s2 := PrinterEventLoop(RequestStopWork(s, ev), env, now);
            && s2.engineLog == s.engineLog + [Stop, SetFeedrateFull]
            && s2.outbox == s.outbox + [Message(ev.source, ev.receiverId, AttrAck, StopWork, [env.stopResult], Some(ev.sequence))]
  {
  }

  /**
   * Disabling one extruder mid-print goes through a pause: the flag takes
   * effect at once, and the next evaluation pauses and resumes the engine,
   * acknowledges the request to its sender with the resume result and
   * pulls the next batch.
   */
  lemma StopSingleExtrudeWhilePrinting(s: State, ev: Event, env: Engine, now: nat)
    requires Wf(s) && s.sysStatus == Printing && |ev.data| >= 2 && ev.data[0] < HOTENDS
    ensures var s1 := RequestStopSingleExtrude(s, ev, env);
            var s2 := PrinterEventLoop(s1, env, now);
            && s1.duplication[ev.data[0]] == (ev.data[1] != 0)
            && s1.outbox == s.outbox
            && s2.engineLog == s.engineLog + [Pause, Resume]
            && s2.outbox == s.outbox + [
                 Message(ev.source, ev.receiverId, AttrAck, StopSingleExtrude, [env.resumeResult], Some(ev.sequence))]
                 + PullIfRoom(SaveSource(s, ev), env)
            && s2.reqStatus == (if env.bufFree >= GCODE_MAX_PACK_SIZE then WaitRecv else WaitCache)
  {
  }

  /**
   * Outside printing the extruder flag is only stashed for the power-loss
   * record and the request is answered at once; the live flags stay.
   */
  lemma StopSingleExtrudeStashedWhenNotPrinting(s: State, ev: Event, env: Engine)
    requires Wf(s) && s.sysStatus != Printing && !StopSingleRejected(s, env)
    requires |ev.data| >= 2 && ev.data[0] < HOTENDS
    ensures var r := RequestStopSingleExtrude(s, ev, env);
            && r.dualEnableStash == s.dualEnableStash[ev.data[0] := ev.data[1]]
            && r.duplication == s.duplication && r.sysStatus == s.sysStatus
            && r.outbox == s.outbox + [Reply(ev, [E_SUCCESS])]
  {
  }

  // -------------------------------------------------------- file identity

  /**
   * With no power-loss record the written block is empty, so the reply
   * starts with PRINT_RESULT_NO_FILE_INFO_E and carries the request's own
   * bytes after it, untouched.
   */
  lemma NoRecordReportsNoFileInfo(s: State, query: Event)
    requires Wf(s) && |query.data| >= FILE_INFO_SIZE + 1
    requires s.fileMd5.None? && s.fileName.None?
    ensures RequestFileInfo(s, query).outbox ==
              s.outbox + [Reply(query, [PRINT_RESULT_NO_FILE_INFO_E] + query.data[1..FILE_INFO_SIZE + 1])]
  {
    var buf := query.data[1..];
    assert LoadFileInfo(buf, None, None) == (buf, 0);
    assert ([PRINT_RESULT_NO_FILE_INFO_E] + buf)[..FILE_INFO_SIZE + 1]
           == [PRINT_RESULT_NO_FILE_INFO_E] + query.data[1..FILE_INFO_SIZE + 1];
  }

  /** A file-information reply, when the record holds both fields, carries them in its identity block. */
  lemma FileInfoReplyCarriesRecord(s: State, query: Event)
    requires Wf(s) && s.fileMd5.Some? && s.fileName.Some? && |query.data| >= FILE_INFO_SIZE + 1
    ensures var r := RequestFileInfo(s, query);
            var reply := r.outbox[|r.outbox| - 1];
            && reply.source == query.source && reply.sequence == Some(query.sequence)
            && |reply.data| == FILE_INFO_SIZE + 1 && reply.data[0] == E_SUCCESS
            && ParseFileIdentity(reply.data[1..]) == Some((s.fileMd5.value, s.fileName.value))
  {
    var md5, name := s.fileMd5.value, s.fileName.value;
    var buf := query.data[1..];
    var (out, len) := LoadFileInfo(buf, Some(md5), Some(name));
    FileInfoRoundTrip(buf, md5, name);
    var data := ([E_SUCCESS] + out)[..FILE_INFO_SIZE + 1];
    assert RequestFileInfo(s, query).outbox == s.outbox + [Reply(query, data)];
    assert data[1..] == out[..FILE_INFO_SIZE];
    ParseFileIdentityPrefix(out, FILE_INFO_SIZE);
  }

  /**
   * The md5 and file name a successful start request carries are what a
   * later file-information request reports: the reply starts with
   * E_SUCCESS and the identity block in it parses back to the same fields.
   */
  lemma FileInfoReportsStartedFile(s: State, start: Event, env: Engine, now: nat, query: Event)
    requires Wf(s) && env.startResult == E_SUCCESS && StartPayloadOk(start.data)
    requires |query.data| >= FILE_INFO_SIZE + 1
    ensures var r := RequestFileInfo(RequestStartWork(s, start, env, now), query);
            var reply := r.outbox[|r.outbox| - 1];
            && |reply.data| == FILE_INFO_SIZE + 1 && reply.data[0] == E_SUCCESS
            && ParseFileIdentity(reply.data[1..]) == ParseFileIdentity(start.data)
  {
    var (md5, name) := ParseFileIdentity(start.data).value;
    var s1 := RequestStartWork(s, start, env, now);
    assert s1.fileMd5 == Some(md5) && s1.fileName == Some(name);
    assert Wf(s1);
    assert ParseFileIdentity(start.data) == Some((md5, name));
    FileInfoReplyCarriesRecord(s1, query);
  }

  /**
   * With a power-loss record present, the status reply is E_SUCCESS
   * followed by exactly the identity block of the interrupted job.
   */
  lemma PowerLossStatusReportsRecord(s: State, ev: Event, env: Engine)
    requires Wf(s) && s.fileMd5.Some? && s.fileName.Some?
    requires env.powerLossStatus == E_SUCCESS && |ev.data| >= FILE_INFO_SIZE + 1
    ensures var r := RequestPowerLossStatus(s, ev, env);
            var reply := r.outbox[|r.outbox| - 1];
            && reply.data[0] == E_SUCCESS
            && |reply.data| == 5 + |s.fileMd5.value| + |s.fileName.value|
            && ParseFileIdentity(reply.data[1..]) == Some((s.fileMd5.value, s.fileName.value))
  {
    var md5, name := s.fileMd5.value, s.fileName.value;
    var buf := ev.data[1..];
    var (out, len) := LoadFileInfo(buf, Some(md5), Some(name));
    FileInfoRoundTrip(buf, md5, name);
    var data := ([E_SUCCESS] + out)[..len + 1];
    assert RequestPowerLossStatus(s, ev, env).outbox == s.outbox + [Reply(ev, data)];
    assert data[1..] == out[..len];
    ParseFileIdentityPrefix(out, len);
  }
}

=== FILE: printer_codec.dfy ===
/**
 * The byte layouts of event_printer.cpp: the file-identity block that
 * `load_gcode_file_info` writes into a reply and `request_start_work`
 * reads from a request (two length-prefixed fields), the instruction
 * batch (`batch_gcode_t`) and the batch pull request
 * (`batch_gcode_req_info_t`). All are packed little-endian structures.
 *
 * The numeric values of `ErrCode`, of the `PRINT_RESULT_*` codes and of
 * the print modes are declared in headers that are not part of this
 * model; the values below only need to be distinct bytes (E_SUCCESS is 0).
 * The `report_status_e` values are the ones event_printer.cpp declares.
 */
module PrinterCodec {
  import opened Bytes
  import opened Options

  const GCODE_MAX_PACK_SIZE: u16 := 450

  /** Capacities of the power-loss record's fields (declared in power_loss.h, not modelled). */
  const GCODE_MD5_LENGTH: nat := 32
  const GCODE_FILE_NAME_SIZE: nat := 128
  /** `sizeof(gcode_file_info_t)`. */
  const FILE_INFO_SIZE: nat := 2 + GCODE_MD5_LENGTH + 2 + GCODE_FILE_NAME_SIZE

  const E_SUCCESS: byte := 0
  const PRINT_RESULT_START_ERR_E: byte := 1
  const PRINT_RESULT_PAUSE_ERR_E: byte := 2
  const PRINT_RESULT_RESUME_ERR_E: byte := 3
  const PRINT_RESULT_NO_FILE_INFO_E: byte := 4
  /** The batch flag that marks the last batch of a job. */
  const PRINT_RESULT_GCODE_RECV_DONE_E: byte := 5

  const PRINT_BACKUP_MODE: byte := 1
  const PRINT_AUTO_PARK_MODE: byte := 2

  const STATUS_PRINT_DONE: byte := 0
  const STATUS_PAUSE_BE_GCODE: byte := 1
  const STATUS_PAUSE_BE_FILAMENT: byte := 3

  function OptLen(o: Option<seq<byte>>): nat {
    if o.Some? then |o.value| else 0
  }

  /**
   * `load_gcode_file_info`: writes the md5 and then the file name, each as
   * a `uint16_t` length followed by its bytes, into `buf`, and returns the
   * new buffer and `ret_len`. A missing field writes nothing and adds
   * nothing to `ret_len`, but the write position still moves past its
   * two-byte length slot (its length variable is still 0). Lengths travel
   * through a `uint8_t`, hence below 256.
   */
  function LoadFileInfo(buf: seq<byte>, md5: Option<seq<byte>>, name: Option<seq<byte>>)
    : (r: (seq<byte>, nat))
    requires OptLen(md5) < 0x100 && OptLen(name) < 0x100
    requires 4 + OptLen(md5) + OptLen(name) <= |buf|
    ensures |r.0| == |buf|
    ensures r.1 == (if md5.Some? then |md5.value| + 2 else 0) + (if name.Some? then |name.value| + 2 else 0)
    ensures md5.Some? ==> r.0[..2] == Le16(|md5.value|) && r.0[2..2 + |md5.value|] == md5.value
    ensures md5.None? ==> r.0[..2] == buf[..2]
    ensures name.Some? ==>
              && r.0[OptLen(md5) + 2..OptLen(md5) + 4] == Le16(|name.value|)
              && r.0[OptLen(md5) + 4..OptLen(md5) + 4 + |name.value|] == name.value
    ensures name.None? ==> r.0[OptLen(md5) + 2..] == buf[OptLen(md5) + 2..]
    ensures r.0[4 + OptLen(md5) + OptLen(name)..] == buf[4 + OptLen(md5) + OptLen(name)..]
  {
    var l1 := OptLen(md5);
    var b1 := if md5.Some? then Le16(l1) + md5.value + buf[l1 + 2..] else buf;
    var off := l1 + 2;
    var l2 := OptLen(name);
    var b2 := if name.Some? then b1[..off] + Le16(l2) + name.value + b1[off + 2 + l2..] else b1;
    (b2, (if md5.Some? then l1 + 2 else 0) + (if name.Some? then l2 + 2 else 0))
  }

  /**
   * The md5 and the file name of a start request: md5 = data[2 .. 2+L1)
   * and name = data[L1+4 .. L1+4+L2), where L1 is the `uint16_t` at
   * data[0..2) and L2 the one at data[L1+2 .. L1+4). `None` when the
   * payload is too short for the lengths it declares (the source reads
   * on regardless).
   */
  function ParseFileIdentity(data: seq<byte>): (r: Option<(seq<byte>, seq<byte>)>)
    ensures r.Some? ==> 4 + |r.value.0| + |r.value.1| <= |data|
  {
    if |data| < 2 then None
    else
      var l1 := ReadLe16(data, 0);
      if |data| < l1 + 4 then None
      else
        var l2 := ReadLe16(data, l1 + 2);
        if |data| < l1 + 4 + l2 then None
        else Some((data[2..2 + l1], data[l1 + 4..l1 + 4 + l2]))
  }

  /**
   * What a reply carries about the file identity is exactly what a start
   * request carries: parsing the block `load_gcode_file_info` wrote gives
   * back the md5 and the name.
   */
  lemma FileInfoRoundTrip(buf: seq<byte>, md5: seq<byte>, name: seq<byte>)
    requires |md5| < 0x100 && |name| < 0x100 && 4 + |md5| + |name| <= |buf|
    ensures ParseFileIdentity(LoadFileInfo(buf, Some(md5), Some(name)).0) == Some((md5, name))
    ensures LoadFileInfo(buf, Some(md5), Some(name)).1 == 4 + |md5| + |name|
  {
    var out := LoadFileInfo(buf, Some(md5), Some(name)).0;
    var l1, l2 := |md5|, |name|;
    assert out[0..2] == Le16(l1);
    ReadLe16Of(out, 0, l1);
    assert out[l1 + 2..l1 + 4] == Le16(l2);
    ReadLe16Of(out, l1 + 2, l2);
    assert out[2..2 + l1] == md5;
    assert out[l1 + 4..l1 + 4 + l2] == name;
  }

  /**
   * Conversely, writing back the identity parsed from a start payload over
   * that same payload changes none of its bytes.
   */
  lemma ParsedIdentityReloads(data: seq<byte>)
    requires ParseFileIdentity(data).Some?
    requires |ParseFileIdentity(data).value.0| < 0x100 && |ParseFileIdentity(data).value.1| < 0x100
    ensures var (md5, name) := ParseFileIdentity(data).value;
            LoadFileInfo(data, Some(md5), Some(name)) == (data, 4 + |md5| + |name|)
  {
    var (md5, name) := ParseFileIdentity(data).value;
    var l1, l2 := |md5|, |name|;
    Le16OfRead(data, 0);
    Le16OfRead(data, l1 + 2);
    var b1 := Le16(l1) + md5 + data[l1 + 2..];
    assert b1 == data;
    var out := b1[..l1 + 2] + Le16(l2) + name + b1[l1 + 4 + l2..];
    assert out == data[..l1 + 2] + data[l1 + 2..l1 + 4] + data[l1 + 4..l1 + 4 + l2] + data[l1 + 4 + l2..];
    assert out == data;
  }

  /** The identity block is read from its declared bytes only: any longer prefix gives the same result. */
  lemma ParseFileIdentityPrefix(data: seq<byte>, k: nat)
    requires ParseFileIdentity(data).Some?
    requires 4 + |ParseFileIdentity(data).value.0| + |ParseFileIdentity(data).value.1| <= k <= |data|
    ensures ParseFileIdentity(data[..k]) == ParseFileIdentity(data)
  {
    var p := data[..k];
    var l1: int := ReadLe16(data, 0);
    assert p[0] == data[0] && p[1] == data[1];
    assert ReadLe16(p, 0) == l1;
    assert p[l1 + 2] == data[l1 + 2] && p[l1 + 3] == data[l1 + 3];
    var l2: int := ReadLe16(data, l1 + 2);
    assert ReadLe16(p, l1 + 2) == l2;
    assert p[2..2 + l1] == data[2..2 + l1];
    assert p[l1 + 4..l1 + 4 + l2] == data[l1 + 4..l1 + 4 + l2];
  }

  /**
   * With the md5 missing and the name present, `ret_len` counts only the
   * name's block, yet the block sits two bytes further on: the first
   * `ret_len` bytes hold two untouched bytes and miss the name's last two.
   */
  lemma MissingMd5ShiftsName(buf: seq<byte>, name: seq<byte>)
    requires |name| < 0x100 && 4 + |name| <= |buf|
    ensures var (out, len) := LoadFileInfo(buf, None, Some(name));
            && len == |name| + 2
            && out[..2] == buf[..2]
            && out[2..4] == Le16(|name|)
            && out[4..4 + |name|] == name
  {
  }

  /** `batch_gcode_t`: a flag, the inclusive line range and the instruction bytes. */
  datatype Batch = Batch(flag: byte, startLine: u32, endLine: u32, data: seq<byte>)

  const BATCH_HEADER_SIZE: nat := 11

  /** The batch a `PRINTER_ID_REQ_GCODE` payload holds, or `None` when it is cut short. */
  function ParseBatch(bytes: seq<byte>): (r: Option<Batch>)
    ensures r.Some? ==> BATCH_HEADER_SIZE + |r.value.data| <= |bytes| && |r.value.data| < 0x1_0000
  {
    if |bytes| < BATCH_HEADER_SIZE then None
    else
      var len := ReadLe16(bytes, 9);
      if |bytes| < BATCH_HEADER_SIZE + len then None
      else Some(Batch(bytes[0], ReadLe32(bytes, 1), ReadLe32(bytes, 5),
                      bytes[BATCH_HEADER_SIZE..BATCH_HEADER_SIZE + len]))
  }

  /** The host's side of the layout. */
  function EncodeBatch(b: Batch): (bytes: seq<byte>)
    requires |b.data| < 0x1_0000
    ensures |bytes| == BATCH_HEADER_SIZE + |b.data|
  {
    [b.flag] + Le32(b.startLine) + Le32(b.endLine) + Le16(|b.data|) + b.data
  }

  /** A batch survives the trip through its packed layout, whatever follows it in the buffer. */
  lemma BatchRoundTrip(b: Batch, rest: seq<byte>)
    requires |b.data| < 0x1_0000
    ensures ParseBatch(EncodeBatch(b) + rest) == Some(b)
  {
    var bytes := EncodeBatch(b) + rest;
    assert bytes[1..5] == Le32(b.startLine);
    ReadLe32Of(bytes, 1, b.startLine);
    assert bytes[5..9] == Le32(b.endLine);
    ReadLe32Of(bytes, 5, b.endLine);
    assert bytes[9..11] == Le16(|b.data|);
    ReadLe16Of(bytes, 9, |b.data|);
    assert bytes[BATCH_HEADER_SIZE..BATCH_HEADER_SIZE + |b.data|] == b.data;
  }

  /** A parsed batch re-encodes to exactly the bytes it was read from. */
  lemma ParsedBatchReencodes(bytes: seq<byte>)
    requires ParseBatch(bytes).Some?
    ensures var b := ParseBatch(bytes).value;
            EncodeBatch(b) == bytes[..BATCH_HEADER_SIZE + |b.data|]
  {
    Le32OfRead(bytes, 1);
    Le32OfRead(bytes, 5);
    Le16OfRead(bytes, 9);
    var b := ParseBatch(bytes).value;
    var n := BATCH_HEADER_SIZE + |b.data|;
    assert bytes[..n] == [bytes[0]] + bytes[1..5] + bytes[5..9] + bytes[9..11] + bytes[11..n];
  }

  /** `batch_gcode_req_info_t`: the next line wanted and the largest batch accepted. */
  function PackRequest(line: u32): (p: seq<byte>)
    ensures |p| == 6
  {
    Le32(line) + Le16(GCODE_MAX_PACK_SIZE)
  }

  /** A pull request tells the host exactly the line asked for and the 450-byte limit. */
  lemma PackRequestFields(line: u32)
    ensures ReadLe32(PackRequest(line), 0) == line
    ensures ReadLe16(PackRequest(line), 4) == GCODE_MAX_PACK_SIZE as int
  {
    var p := PackRequest(line);
    assert p[0..4] == Le32(line);
    ReadLe32Of(p, 0, line);
    assert p[4..6] == Le16(GCODE_MAX_PACK_SIZE);
    ReadLe16Of(p, 4, GCODE_MAX_PACK_SIZE);
  }
}

=== FILE: update_checksum.dfy ===
/**
 * The header checksum of the firmware-update descriptor
 * (`update_calc_checksum`): the 32-bit wrapping sum of the big-endian
 * 16-bit words of a buffer, an unpaired last byte added as it is, then
 * the bitwise complement. Unlike the Internet checksum of RFC 1071 the
 * carries out of bit 15 are kept (there is no end-around-carry fold), and
 * an empty or absent buffer yields 0 rather than the complement of 0.
 */
module UpdateChecksum {
  import opened Bytes
  import opened Options

  const WRAP: int := 0x1_0000_0000

  /** The big-endian 16-bit word made of bytes 2k and 2k+1. */
  function Word(s: seq<byte>, k: nat): nat
    requires 2 * k + 1 < |s|
  {
    s[2 * k] as int * 0x100 + s[2 * k + 1] as int
  }

  /** The exact (unwrapped) sum of the first n words of s. */
  function WordSum(s: seq<byte>, n: nat): nat
    requires 2 * n <= |s|
  {
    if n == 0 then 0 else WordSum(s, n - 1) + Word(s, n - 1)
  }

  /** Every whole word of s plus, when |s| is odd, its last byte unshifted. */
  function RawSum(s: seq<byte>): nat {
    WordSum(s, |s| / 2) + (if |s| % 2 == 1 then s[|s| - 1] as int else 0)
  }

  /** The value `update_calc_checksum` computes for a non-null buffer. */
  function Checksum(s: seq<byte>): u32 {
    if |s| == 0 then 0 else 0xFFFF_FFFF - RawSum(s) % WRAP
  }

  /**
   * `update_calc_checksum`: `None` stands for a null buffer pointer. The
   * accumulator is a `uint32_t`, so every addition wraps at 2^32.
   */
  method CalcChecksum(buffer: Option<seq<byte>>) returns (checksum: u32)
    ensures buffer.None? ==> checksum == 0
    ensures buffer.Some? && |buffer.value| == 0 ==> checksum == 0
    ensures buffer.Some? && |buffer.value| > 0 ==>
              (checksum + RawSum(buffer.value)) % WRAP == 0xFFFF_FFFF
    ensures buffer.Some? ==> checksum == Checksum(buffer.value)
  {
    if buffer.None? || |buffer.value| == 0 {
      return 0;
    }
    var data := buffer.value;
    var length := |data|;
    var sum: u32 := 0;
    var j := 0;
    while j < length - 1
      invariant j % 2 == 0 && j <= length
      invariant sum == WordSum(data, j / 2) % WRAP
    {
      ModAddLeft(WordSum(data, j / 2), Word(data, j / 2));
      sum := (sum + (data[j] as int * 0x100 + data[j + 1] as int)) % WRAP;
      j := j + 2;
    }
    assert j / 2 == length / 2;
    if length % 2 == 1 {
      ModAddLeft(WordSum(data, j / 2), data[length - 1]);
      sum := (sum + data[length - 1]) % WRAP;
    }
    checksum := 0xFFFF_FFFF - sum;
  }

  /** Reducing the left operand first does not change a sum modulo 2^32. */
  lemma ModAddLeft(a: nat, b: nat)
    ensures (a % WRAP + b) % WRAP == (a + b) % WRAP
  {
    var q := a / WRAP;
    assert a == q * WRAP + a % WRAP;
    assert a + b == (a % WRAP + b) + q * WRAP;
  }

  /** Two naturals closer than 2^32 but distinct stay distinct modulo 2^32. */
  lemma ModDistinct(a: nat, b: nat)
    requires a != b && a - b < WRAP && b - a < WRAP
    ensures a % WRAP != b % WRAP
  {
    var qa, qb := a / WRAP, b / WRAP;
    assert a == qa * WRAP + a % WRAP;
    assert b == qb * WRAP + b % WRAP;
  }

  /**
   * Changing byte i alone moves the first n words' sum by the change,
   * weighted 256 when i is the high byte of a word (even i), 1 when it is
   * the low byte, and 0 when i lies past those words.
   */
  lemma {:induction false} WordSumDelta(s: seq<byte>, t: seq<byte>, i: nat, n: nat)
    requires |s| == |t| && i < |s| && 2 * n <= |s|
    requires forall k :: 0 <= k < |s| && k != i ==> s[k] == t[k]
    ensures WordSum(t, n) - WordSum(s, n) ==
              if i < 2 * n then (t[i] as int - s[i] as int) * (if i % 2 == 0 then 0x100 else 1) else 0
  {
    if n > 0 {
      WordSumDelta(s, t, i, n - 1);
    }
  }

  /**
   * A descriptor whose bytes differ from another's in exactly one position
   * never has the same checksum: any single-byte (hence any single-bit)
   * corruption is detected.
   */
  lemma SingleByteChangeDetected(s: seq<byte>, t: seq<byte>, i: nat)
    requires |s| == |t| && i < |s| && s[i] != t[i]
    requires forall k :: 0 <= k < |s| && k != i ==> s[k] == t[k]
    ensures Checksum(s) != Checksum(t)
  {
    var n := |s| / 2;
    WordSumDelta(s, t, i, n);
    var d := t[i] as int - s[i] as int;
    if i < 2 * n {
      assert RawSum(t) - RawSum(s) == d * (if i % 2 == 0 then 0x100 else 1);
    } else {
      assert i == |s| - 1 && |s| % 2 == 1;
      assert RawSum(t) - RawSum(s) == d;
    }
    ModDistinct(RawSum(s), RawSum(t));
  }

  /** The sequence s with its words i and j exchanged. */
  function SwapWords(s: seq<byte>, i: nat, j: nat): (t: seq<byte>)
    requires 2 * i + 1 < |s| && 2 * j + 1 < |s|
    ensures |t| == |s|
  {
    seq(|s|, k requires 0 <= k < |s| =>
      if k / 2 == i then s[2 * j + k % 2]
      else if k / 2 == j then s[2 * i + k % 2]
      else s[k])
  }

  /** How the first n words' sum of a word-swapped sequence relates to the original. */
  lemma {:induction false} WordSumSwap(s: seq<byte>, i: nat, j: nat, n: nat)
    requires i < j && 2 * j + 1 < |s| && 2 * n <= |s|
    ensures WordSum(SwapWords(s, i, j), n) ==
              if n <= i || j < n then WordSum(s, n)
              else WordSum(s, n) - Word(s, i) + Word(s, j)
  {
    var t := SwapWords(s, i, j);
    if n > 0 {
      WordSumSwap(s, i, j, n - 1);
      var k := n - 1;
      if k == i {
        assert t[2 * k] == s[2 * j] && t[2 * k + 1] == s[2 * j + 1];
      } else if k == j {
        assert t[2 * k] == s[2 * i] && t[2 * k + 1] == s[2 * i + 1];
      } else {
        assert t[2 * k] == s[2 * k] && t[2 * k + 1] == s[2 * k + 1];
      }
    }
  }

  /**
   * Exchanging two whole 16-bit words leaves the checksum unchanged: the
   * checksum is blind to word reordering, so it can only vouch for the
   * bytes, not for where they sit.
   */
  lemma SwappedWordsUndetected(s: seq<byte>, i: nat, j: nat)
    requires i < j && 2 * j + 1 < |s|
    ensures Checksum(SwapWords(s, i, j)) == Checksum(s)
  {
    var t := SwapWords(s, i, j);
    WordSumSwap(s, i, j, |s| / 2);
    if |s| % 2 == 1 {
      assert t[|s| - 1] == s[|s| - 1];
    }
    assert RawSum(t) == RawSum(s);
  }
}

=== FILE: update_flash.dfy ===
/**
 * The on-chip flash as the update code sees it, and the two loops of
 * update.cpp that drive it: `erase_flash_page`, which walks `page_count`
 * pages whose size depends on the bank the address lies in, and
 * `write_to_flash`, which programs a byte buffer as little-endian
 * halfwords. The hardware primitives (`FLASH_ErasePage`,
 * `FLASH_ProgramHalfWord`) act on an array of halfwords: erasing sets a
 * whole page to 0xFFFF, programming stores one halfword; both keep a log
 * of the addresses they were handed.
 */
module UpdateFlash {
  import opened Bytes

  const FLASH_BASE: nat := 0x0800_0000
  const APP_FLASH_PAGE_SIZE: nat := 2 * 1024
  const DATA_FLASH_PAGE_SIZE: nat := 4 * 1024
  /** First address of the bank whose pages are 4 KiB. */
  const DATA_FLASH_START_ADDR: nat := FLASH_BASE + 512 * 1024
  /** Size of the modelled flash (the part has 1 MiB). */
  const FLASH_SIZE: nat := 1024 * 1024
  const FLASH_END: nat := FLASH_BASE + FLASH_SIZE
  const HALFWORDS: nat := FLASH_SIZE / 2

  const ERASED: u16 := 0xFFFF

  /** The size of the page that holds `addr`. */
  function PageSize(addr: nat): nat {
    if addr < DATA_FLASH_START_ADDR then APP_FLASH_PAGE_SIZE else DATA_FLASH_PAGE_SIZE
  }

  /** The first address of the page that holds `addr`. */
  function PageStart(addr: nat): nat {
    addr - addr % PageSize(addr)
  }

  predicate PageAligned(addr: nat) {
    addr % PageSize(addr) == 0
  }

  /** The halfword index of a byte address (negative below the flash). */
  function Index(addr: nat): int {
    (addr - FLASH_BASE) / 2
  }

  /** The byte address of halfword index k. */
  function AddrOf(k: nat): nat {
    FLASH_BASE + 2 * k
  }

  /** The address `erase_flash_page` hands to the hardware on its n-th step. */
  function Walk(addr: nat, n: nat): nat {
    if n == 0 then addr else Walk(addr, n - 1) + PageSize(Walk(addr, n - 1))
  }

  /** The addresses of the first n steps of the walk, in order. */
  function WalkAddrs(addr: nat, n: nat): (r: seq<nat>)
    ensures |r| == n
  {
    if n == 0 then [] else WalkAddrs(addr, n - 1) + [Walk(addr, n - 1)]
  }

  /** Flash contents after `FLASH_ErasePage(addr)`: the whole page holding addr reads 0xFFFF. */
  function EraseImage(mem: seq<u16>, addr: nat): (r: seq<u16>)
    ensures |r| == |mem|
  {
    var lo := Index(PageStart(addr));
    var hi := lo + PageSize(addr) / 2;
    seq(|mem|, k requires 0 <= k < |mem| => if lo <= k < hi then ERASED else mem[k])
  }

  /** Flash contents after the first n erases of the walk from addr. */
  function EraseWalk(mem: seq<u16>, addr: nat, n: nat): (r: seq<u16>)
    ensures |r| == |mem|
  {
    if n == 0 then mem else EraseImage(EraseWalk(mem, addr, n - 1), Walk(addr, n - 1))
  }

  /**
   * The halfwords `write_to_flash` programs for `data`: pairs of bytes,
   * low byte first; an unpaired last byte gets 0xFF as its high byte.
   */
  function Halfwords(data: seq<byte>): (hs: seq<u16>)
    ensures |hs| == (|data| + 1) / 2
  {
    seq((|data| + 1) / 2, k requires 0 <= k < (|data| + 1) / 2 =>
      if 2 * k + 1 < |data| then data[2 * k] as int + 0x100 * data[2 * k + 1] as int
      else data[2 * k] as int + 0xFF00)
  }

  /** Flash contents after programming hs at consecutive halfwords from addr. */
  function ProgramImage(mem: seq<u16>, addr: nat, hs: seq<u16>): (r: seq<u16>)
    ensures |r| == |mem|
  {
    var lo := Index(addr);
    seq(|mem|, k requires 0 <= k < |mem| => if lo <= k < lo + |hs| then hs[k - lo] else mem[k])
  }

  /** The (address, halfword) pairs handed to `FLASH_ProgramHalfWord`, in order. */
  function ProgramOps(addr: nat, hs: seq<u16>): (ops: seq<(nat, u16)>)
    ensures |ops| == |hs|
  {
    seq(|hs|, k requires 0 <= k < |hs| => (addr + 2 * k, hs[k]))
  }

  /** The byte at address a, read from little-endian halfwords. */
  function ByteAt(mem: seq<u16>, a: nat): byte
    requires FLASH_BASE <= a < FLASH_BASE + 2 * |mem|
  {
    if (a - FLASH_BASE) % 2 == 0 then mem[Index(a)] % 0x100 else mem[Index(a)] / 0x100
  }

  /** The n bytes stored from address addr on (what `memcpy` out of flash reads). */
  function BytesAt(mem: seq<u16>, addr: nat, n: nat): (r: seq<byte>)
    requires FLASH_BASE <= addr && addr + n <= FLASH_BASE + 2 * |mem|
    ensures |r| == n
  {
    seq<byte>(n, i requires 0 <= i < n => ByteAt(mem, addr + i))
  }

  /** Below the data bank the walk moves in 2 KiB steps. */
  lemma {:induction false} WalkBelowDataBank(addr: nat, n: nat)
    requires Walk(addr, n) <= DATA_FLASH_START_ADDR
    ensures Walk(addr, n) == addr + n * APP_FLASH_PAGE_SIZE
  {
    if n > 0 {
      WalkBelowDataBank(addr, n - 1);
    }
  }

  /** From the start of the data bank on the walk moves in 4 KiB steps. */
  lemma {:induction false} WalkInDataBank(addr: nat, n: nat)
    requires DATA_FLASH_START_ADDR <= addr
    ensures Walk(addr, n) == addr + n * DATA_FLASH_PAGE_SIZE
  {
    if n > 0 {
      WalkInDataBank(addr, n - 1);
    }
  }

  /**
   * A walk that starts on a page boundary only ever lands on page
   * boundaries, including the switch from 2 KiB to 4 KiB pages.
   */
  lemma {:induction false} WalkStaysAligned(addr: nat, n: nat)
    requires FLASH_BASE <= addr && PageAligned(addr)
    ensures PageAligned(Walk(addr, n)) && FLASH_BASE <= Walk(addr, n)
  {
    if n > 0 {
      WalkStaysAligned(addr, n - 1);
      var w := Walk(addr, n - 1);
      if w < DATA_FLASH_START_ADDR {
        assert (w - FLASH_BASE) % APP_FLASH_PAGE_SIZE == 0;
        assert Walk(addr, n) == w + APP_FLASH_PAGE_SIZE;
        assert (Walk(addr, n) - FLASH_BASE) % APP_FLASH_PAGE_SIZE == 0;
        if Walk(addr, n) >= DATA_FLASH_START_ADDR {
          assert Walk(addr, n) == DATA_FLASH_START_ADDR;
        }
      }
    }
  }

  /** The walk never goes backwards. */
  lemma {:induction false} WalkGrows(addr: nat, m: nat, n: nat)
    requires m <= n
    ensures Walk(addr, m) <= Walk(addr, n)
  {
    if m < n {
      WalkGrows(addr, m, n - 1);
    }
  }

  /** A page boundary lies an even number of bytes above the flash base. */
  lemma AlignedIsEven(w: nat)
    requires FLASH_BASE <= w && PageAligned(w)
    ensures (w - FLASH_BASE) % 2 == 0 && PageStart(w) == w
  {
    if w < DATA_FLASH_START_ADDR {
      assert w == (w / APP_FLASH_PAGE_SIZE) * APP_FLASH_PAGE_SIZE;
      assert w - FLASH_BASE == (w / APP_FLASH_PAGE_SIZE - 0x1_0000) * APP_FLASH_PAGE_SIZE;
    } else {
      assert w == (w / DATA_FLASH_PAGE_SIZE) * DATA_FLASH_PAGE_SIZE;
      assert w - FLASH_BASE == (w / DATA_FLASH_PAGE_SIZE - 0x8000) * DATA_FLASH_PAGE_SIZE;
    }
  }

  /** Erasing at a page boundary w clears exactly the halfwords of [w, w + PageSize(w)). */
  lemma EraseImageAt(mem: seq<u16>, w: nat, k: nat)
    requires FLASH_BASE <= w && PageAligned(w) && k < |mem|
    ensures EraseImage(mem, w)[k] ==
              if w <= AddrOf(k) < w + PageSize(w) then ERASED else mem[k]
  {
    AlignedIsEven(w);
    assert 2 * Index(w) == w - FLASH_BASE;
  }

  /**
   * Erasing n pages from a page boundary erases exactly the halfwords
   * whose addresses lie in [addr, Walk(addr, n)): consecutive pages, no
   * gap and nothing outside.
   */
  lemma {:induction false} EraseWalkCovers(mem: seq<u16>, addr: nat, n: nat, k: nat)
    requires FLASH_BASE <= addr && PageAligned(addr) && k < |mem|
    ensures EraseWalk(mem, addr, n)[k] ==
              if addr <= AddrOf(k) < Walk(addr, n) then ERASED else mem[k]
  {
    if n > 0 {
      EraseWalkCovers(mem, addr, n - 1, k);
      var w := Walk(addr, n - 1);
      WalkStaysAligned(addr, n - 1);
      WalkGrows(addr, 0, n - 1);
      EraseImageAt(EraseWalk(mem, addr, n - 1), w, k);
    }
  }

  /** Reading back what `write_to_flash` programmed gives exactly the data. */
  lemma WriteReadBack(mem: seq<u16>, addr: nat, data: seq<byte>)
    requires FLASH_BASE <= addr && (addr - FLASH_BASE) % 2 == 0
    requires addr + |data| <= FLASH_BASE + 2 * |mem|
    ensures BytesAt(ProgramImage(mem, addr, Halfwords(data)), addr, |data|) == data
  {
    var hs := Halfwords(data);
    var img := ProgramImage(mem, addr, hs);
    var back := BytesAt(img, addr, |data|);
    forall i | 0 <= i < |data|
      ensures back[i] == data[i]
    {
      var k := i / 2;
      assert addr + i - FLASH_BASE == 2 * Index(addr) + 2 * k + i % 2;
      assert Index(addr + i) == Index(addr) + k;
      assert img[Index(addr + i)] == hs[k];
      if i % 2 == 0 {
        assert (addr + i - FLASH_BASE) % 2 == 0;
      } else {
        assert (addr + i - FLASH_BASE) % 2 == 1;
        assert 2 * k + 1 < |data|;
      }
    }
  }

  class Flash {
    /** Halfword k holds the bytes at addresses FLASH_BASE + 2k (low) and + 2k + 1 (high). */
    const cells: array<u16>
    /** Addresses handed to `FLASH_ErasePage`, in order. */
    var eraseLog: seq<nat>
    /** (address, halfword) pairs handed to `FLASH_ProgramHalfWord`, in order. */
    var programLog: seq<(nat, u16)>

    ghost predicate Valid()
      reads this
    {
      cells.Length == HALFWORDS
    }

    constructor (initial: seq<u16>)
      requires |initial| == HALFWORDS
      ensures Valid() && fresh(cells)
      ensures cells[..] == initial && eraseLog == [] && programLog == []
    {
      cells := new u16[HALFWORDS](k requires 0 <= k < HALFWORDS => initial[k]);
      eraseLog := [];
      programLog := [];
      new;
      assert cells[..] == initial;
    }

    /** The n bytes stored from addr on. */
    function Read(addr: nat, n: nat): (r: seq<byte>)
      requires Valid() && FLASH_BASE <= addr && addr + n <= FLASH_END
      reads this, cells
      ensures |r| == n
    {
      BytesAt(cells[..], addr, n)
    }

    /** `FLASH_ErasePage`: the page that holds addr reads 0xFFFF afterwards. */
    method ErasePage(addr: nat)
      requires Valid()
      modifies this, cells
      ensures Valid()
      ensures cells[..] == EraseImage(old(cells[..]), addr)
      ensures eraseLog == old(eraseLog) + [addr] && programLog == old(programLog)
    {
      var lo := Index(PageStart(addr));
      var hi := lo + PageSize(addr) / 2;
      forall k | 0 <= k < cells.Length && lo <= k < hi {
        cells[k] := ERASED;
      }
      eraseLog := eraseLog + [addr];
    }

    /** `FLASH_ProgramHalfWord`: stores h at addr (an address outside the flash is ignored). */
    method ProgramHalfWord(addr: nat, h: u16)
      requires Valid()
      modifies this, cells
      ensures Valid()
      ensures cells[..] == ProgramImage(old(cells[..]), addr, [h])
      ensures programLog == old(programLog) + [(addr, h)] && eraseLog == old(eraseLog)
    {
      var k := Index(addr);
      if 0 <= k < cells.Length {
        cells[k] := h;
      }
      programLog := programLog + [(addr, h)];
    }

    /**
     * `erase_flash_page`: erases page_count pages from addr on, stepping
     * 2 KiB below DATA_FLASH_START_ADDR and 4 KiB at or above it.
     */
    method ErasePages(addr: nat, pageCount: nat)
      requires Valid()
      modifies this, cells
      ensures Valid()
      ensures cells[..] == EraseWalk(old(cells[..]), addr, pageCount)
      ensures eraseLog == old(eraseLog) + WalkAddrs(addr, pageCount)
      ensures programLog == old(programLog)
    {
      var a := addr;
      var i := 0;
      while i < pageCount
        invariant 0 <= i <= pageCount && a == Walk(addr, i) && Valid()
        invariant cells[..] == EraseWalk(old(cells[..]), addr, i)
        invariant eraseLog == old(eraseLog) + WalkAddrs(addr, i)
        invariant programLog == old(programLog)
      {
        ErasePage(a);
        if a < DATA_FLASH_START_ADDR {
          a := a + APP_FLASH_PAGE_SIZE;
        } else {
          a := a + DATA_FLASH_PAGE_SIZE;
        }
        i := i + 1;
      }
    }

    /**
     * `write_to_flash`: programs ceil(|data| / 2) halfwords at consecutive
     * addresses from addr, halfword k being data[2k] | data[2k+1] << 8 and
     * an unpaired last byte being written as data[|data|-1] | 0xFF00.
     */
    method Write(addr: nat, data: seq<byte>)
      requires Valid() && FLASH_BASE <= addr && (addr - FLASH_BASE) % 2 == 0
      modifies this, cells
      ensures Valid()
      ensures cells[..] == ProgramImage(old(cells[..]), addr, Halfwords(data))
      ensures programLog == old(programLog) + ProgramOps(addr, Halfwords(data))
      ensures eraseLog == old(eraseLog)
    {
      ghost var hs := Halfwords(data);
      var a := addr;
      var i := 0;
      while i + 2 <= |data|
        invariant i % 2 == 0 && i <= |data| && a == addr + i && Valid()
        invariant cells[..] == ProgramImage(old(cells[..]), addr, hs[..i / 2])
        invariant programLog == old(programLog) + ProgramOps(addr, hs[..i / 2])
        invariant eraseLog == old(eraseLog)
      {
        var h := data[i + 1] as int * 0x100 + data[i] as int;
        ghost var before := cells[..];
        ProgramHalfWord(a, h);
        assert hs[..(i + 2) / 2] == hs[..i / 2] + [h];
        assert Index(a) == Index(addr) + i / 2;
        assert ProgramOps(addr, hs[..(i + 2) / 2]) == ProgramOps(addr, hs[..i / 2]) + [(a, h)];
        a := a + 2;
        i := i + 2;
      }
      if |data| % 2 == 1 {
        var h := data[|data| - 1] as int + 0xFF00;
        ProgramHalfWord(a, h);
        assert hs == hs[..i / 2] + [h];
        assert Index(a) == Index(addr) + i / 2;
        assert ProgramOps(addr, hs) == ProgramOps(addr, hs[..i / 2]) + [(a, h)];
      } else {
        assert hs[..i / 2] == hs;
      }
    }
  }
}

=== FILE: update_server.dfy ===
/**
 * The firmware-update descriptor (`update_packet_info_t`) and the
 * `UpdateServer` operations on it: validation of a descriptor received
 * from the host, and the read-modify-erase-write commits of the copy kept
 * in the reserved flash page at FLASH_UPDATE_INFO_ADDR.
 *
 * The struct's layout is declared in update.h, which is not part of this
 * model. The model fixes one layout that honours what update.cpp relies
 * on: the checksum `pack_head_checknum` is the last field (the checksum
 * covers `sizeof(update_packet_info_t) - sizeof(pack_head_checknum)`
 * bytes), and the fields update.cpp never names are carried as one
 * opaque block `other` of OTHER_FIELDS_SIZE bytes in front.
 */
module UpdateServer {
  import opened Bytes
  import opened UpdateChecksum
  import opened UpdateFlash

  const FLASH_UPDATE_INFO_ADDR: nat := FLASH_BASE + 1024 * 1012
  /** Size of the bootloader at the bottom of the flash (declared outside update.cpp). */
  const BOOT_CODE_SIZE: nat := 64 * 1024
  const UPDATE_STATUS_APP_NORMAL: u16 := 0
  const UPDATE_STATUS_START: u16 := 1

  const OTHER_FIELDS_SIZE: nat := 40
  /** Offset of `pack_head_checknum`, which is also the number of bytes it covers. */
  const CHECKSUM_OFFSET: nat := OTHER_FIELDS_SIZE + 8
  const DESCRIPTOR_SIZE: nat := CHECKSUM_OFFSET + 4

  /** The two results `update_info_check` can return. */
  datatype ErrCode = Success | Param

  datatype Descriptor = Descriptor(
    other: seq<byte>,
    appFlashStartAddr: u32,
    statusFlag: u16,
    usartNum: byte,
    receiverId: byte,
    packHeadChecknum: u32)

  /** The struct has a fixed size. */
  predicate WellFormed(d: Descriptor) {
    |d.other| == OTHER_FIELDS_SIZE
  }

  /** The bytes the checksum covers: every field but `pack_head_checknum`. */
  function Body(d: Descriptor): seq<byte> {
    d.other + Le32(d.appFlashStartAddr) + Le16(d.statusFlag) + [d.usartNum, d.receiverId]
  }

  /** The descriptor's bytes in memory and in flash. */
  function Encode(d: Descriptor): seq<byte> {
    Body(d) + Le32(d.packHeadChecknum)
  }

  /** The descriptor read out of DESCRIPTOR_SIZE bytes. */
  function Decode(img: seq<byte>): (d: Descriptor)
    requires |img| == DESCRIPTOR_SIZE
    ensures WellFormed(d)
  {
    var o := OTHER_FIELDS_SIZE;
    Descriptor(img[..o], ReadLe32(img, o), ReadLe16(img, o + 4), img[o + 6], img[o + 7],
               ReadLe32(img, CHECKSUM_OFFSET))
  }

  /** Decoding the bytes of a descriptor gives the descriptor back. */
  lemma DecodeEncode(d: Descriptor)
    requires WellFormed(d)
    ensures |Encode(d)| == DESCRIPTOR_SIZE && Decode(Encode(d)) == d
  {
    var img := Encode(d);
    var o := OTHER_FIELDS_SIZE;
    assert img[..o] == d.other;
    assert img[o..o + 4] == Le32(d.appFlashStartAddr);
    ReadLe32Of(img, o, d.appFlashStartAddr);
    assert img[o + 4..o + 6] == Le16(d.statusFlag);
    ReadLe16Of(img, o + 4, d.statusFlag);
    assert img[CHECKSUM_OFFSET..CHECKSUM_OFFSET + 4] == Le32(d.packHeadChecknum);
    ReadLe32Of(img, CHECKSUM_OFFSET, d.packHeadChecknum);
  }

  /** Every DESCRIPTOR_SIZE bytes are the encoding of the descriptor read from them. */
  lemma EncodeDecode(img: seq<byte>)
    requires |img| == DESCRIPTOR_SIZE
    ensures Encode(Decode(img)) == img
  {
    var o := OTHER_FIELDS_SIZE;
    Le32OfRead(img, o);
    Le16OfRead(img, o + 4);
    Le32OfRead(img, CHECKSUM_OFFSET);
    assert img == img[..o] + img[o..o + 4] + img[o + 4..o + 6] + [img[o + 6], img[o + 7]]
                  + img[CHECKSUM_OFFSET..CHECKSUM_OFFSET + 4];
  }

  /** `update_packet_head_checksum`: the checksum of all bytes before `pack_head_checknum`. */
  function PacketHeadChecksum(d: Descriptor): (c: u32)
    requires WellFormed(d)
    ensures c == Checksum(Body(d))
  {
    assert Encode(d)[..CHECKSUM_OFFSET] == Body(d);
    Checksum(Encode(d)[..CHECKSUM_OFFSET])
  }

  /** The recomputed checksum depends on every field except the stored checksum itself. */
  lemma PacketHeadChecksumIgnoresChecknum(d: Descriptor, x: u32)
    requires WellFormed(d)
    ensures PacketHeadChecksum(d.(packHeadChecknum := x)) == PacketHeadChecksum(d)
    ensures PacketHeadChecksum(d) == Checksum(Body(d))
  {
    assert Encode(d)[..CHECKSUM_OFFSET] == Body(d);
    assert Encode(d.(packHeadChecknum := x))[..CHECKSUM_OFFSET] == Body(d);
  }

  /** The stored checksum matches the recomputation. */
  predicate ChecksumMatches(d: Descriptor)
    requires WellFormed(d)
  {
    d.packHeadChecknum == PacketHeadChecksum(d)
  }

  /**
   * `update_info_check`: the stored checksum must match, the application
   * start address must be a multiple of the 2 KiB application page and
   * must lie above the boot code. Every failure is the same E_PARAM.
   */
  function InfoCheck(d: Descriptor): (r: ErrCode)
    requires WellFormed(d)
    ensures r == Success <==>
              && ChecksumMatches(d)
              && d.appFlashStartAddr % APP_FLASH_PAGE_SIZE == 0
              && d.appFlashStartAddr >= FLASH_BASE + BOOT_CODE_SIZE
  {
    if !ChecksumMatches(d) then Param
    else if d.appFlashStartAddr % APP_FLASH_PAGE_SIZE != 0 then Param
    else if d.appFlashStartAddr < FLASH_BASE + BOOT_CODE_SIZE then Param
    else Success
  }

  /** `is_allow_update`: an update may start exactly when the descriptor passes `update_info_check`. */
  function IsAllowUpdate(d: Descriptor): (r: ErrCode)
    requires WellFormed(d)
    ensures r == Success <==>
              && ChecksumMatches(d)
              && d.appFlashStartAddr % APP_FLASH_PAGE_SIZE == 0
              && d.appFlashStartAddr >= FLASH_BASE + BOOT_CODE_SIZE
    ensures r == Param || r == Success
  {
    InfoCheck(d)
  }

  /**
   * Corrupting any one byte of a descriptor that passes the check (in the
   * covered fields or in the stored checksum itself) makes it fail.
   */
  lemma CorruptedDescriptorRejected(img: seq<byte>, bad: seq<byte>, i: nat)
    requires |img| == DESCRIPTOR_SIZE && |bad| == DESCRIPTOR_SIZE && i < DESCRIPTOR_SIZE
    requires bad[i] != img[i] && forall k :: 0 <= k < DESCRIPTOR_SIZE && k != i ==> bad[k] == img[k]
    requires InfoCheck(Decode(img)) == Success
    ensures InfoCheck(Decode(bad)) == Param
  {
    var d, e := Decode(img), Decode(bad);
    EncodeDecode(img);
    EncodeDecode(bad);
    assert PacketHeadChecksum(d) == Checksum(img[..CHECKSUM_OFFSET]);
    assert PacketHeadChecksum(e) == Checksum(bad[..CHECKSUM_OFFSET]);
    if i < CHECKSUM_OFFSET {
      SingleByteChangeDetected(img[..CHECKSUM_OFFSET], bad[..CHECKSUM_OFFSET], i);
      assert img[CHECKSUM_OFFSET..] == bad[CHECKSUM_OFFSET..];
      assert e.packHeadChecknum == d.packHeadChecknum;
    } else {
      assert img[..CHECKSUM_OFFSET] == bad[..CHECKSUM_OFFSET];
      Le32OfRead(img, CHECKSUM_OFFSET);
      Le32OfRead(bad, CHECKSUM_OFFSET);
      assert img[CHECKSUM_OFFSET..CHECKSUM_OFFSET + 4][i - CHECKSUM_OFFSET]
          != bad[CHECKSUM_OFFSET..CHECKSUM_OFFSET + 4][i - CHECKSUM_OFFSET];
      assert e.packHeadChecknum != d.packHeadChecknum;
    }
  }

  /** The descriptor currently stored in the reserved page (a `memcpy` out of flash). */
  function StoredDescriptor(flash: Flash): (d: Descriptor)
    requires flash.Valid()
    reads flash, flash.cells
    ensures WellFormed(d)
  {
    Decode(flash.Read(FLASH_UPDATE_INFO_ADDR, DESCRIPTOR_SIZE))
  }

  /** `d` with its checksum recomputed and embedded. */
  function Sealed(d: Descriptor): (s: Descriptor)
    requires WellFormed(d)
    ensures WellFormed(s) && ChecksumMatches(s)
    ensures s == d.(packHeadChecknum := s.packHeadChecknum)
  {
    PacketHeadChecksumIgnoresChecknum(d, PacketHeadChecksum(d));
    d.(packHeadChecknum := PacketHeadChecksum(d))
  }

  /** Nothing outside the reserved page. */
  predicate InInfoPage(k: nat) {
    FLASH_UPDATE_INFO_ADDR <= AddrOf(k) < FLASH_UPDATE_INFO_ADDR + DATA_FLASH_PAGE_SIZE
  }

  /** The part of the reserved page past the descriptor's bytes. */
  predicate PastDescriptor(k: nat) {
    FLASH_UPDATE_INFO_ADDR + DESCRIPTOR_SIZE <= AddrOf(k) < FLASH_UPDATE_INFO_ADDR + DATA_FLASH_PAGE_SIZE
  }

  /**
   * The commit shared by `set_update_status` and `save_update_info`:
   * erase the reserved page, then program the descriptor's bytes into it.
   */
  method Commit(flash: Flash, d: Descriptor)
    requires flash.Valid() && WellFormed(d)
    modifies flash, flash.cells
    ensures flash.Valid()
    ensures StoredDescriptor(flash) == d
    ensures flash.eraseLog == old(flash.eraseLog) + [FLASH_UPDATE_INFO_ADDR]
    ensures flash.programLog == old(flash.programLog)
              + ProgramOps(FLASH_UPDATE_INFO_ADDR, Halfwords(Encode(d)))
    ensures flash.cells[..] == ProgramImage(EraseWalk(old(flash.cells[..]), FLASH_UPDATE_INFO_ADDR, 1),
                                            FLASH_UPDATE_INFO_ADDR, Halfwords(Encode(d)))
    ensures forall k :: 0 <= k < HALFWORDS && !InInfoPage(k) ==> flash.cells[k] == old(flash.cells[k])
    ensures forall k :: 0 <= k < HALFWORDS && PastDescriptor(k) ==> flash.cells[k] == ERASED
  {
    ghost var before := flash.cells[..];
    flash.ErasePages(FLASH_UPDATE_INFO_ADDR, 1);
    ghost var erased := flash.cells[..];
    assert WalkAddrs(FLASH_UPDATE_INFO_ADDR, 1) == [FLASH_UPDATE_INFO_ADDR];
    var img := Encode(d);
    DecodeEncode(d);
    flash.Write(FLASH_UPDATE_INFO_ADDR, img);
    WriteReadBack(erased, FLASH_UPDATE_INFO_ADDR, img);
    assert flash.Read(FLASH_UPDATE_INFO_ADDR, DESCRIPTOR_SIZE) == img;
    forall k | 0 <= k < HALFWORDS && !InInfoPage(k)
      ensures flash.cells[k] == before[k]
    {
      EraseWalkCovers(before, FLASH_UPDATE_INFO_ADDR, 1, k);
    }
    forall k | 0 <= k < HALFWORDS && PastDescriptor(k)
      ensures flash.cells[k] == ERASED
    {
      EraseWalkCovers(before, FLASH_UPDATE_INFO_ADDR, 1, k);
    }
  }

  /**
   * `set_update_status`: reads the stored descriptor, replaces its status,
   * recomputes the checksum and commits it. Reading it back passes the
   * checksum check whatever was stored before.
   */
  method SetUpdateStatus(flash: Flash, status: u16)
    requires flash.Valid()
    modifies flash, flash.cells
    ensures flash.Valid()
    ensures StoredDescriptor(flash) == Sealed(old(StoredDescriptor(flash)).(statusFlag := status))
    ensures StoredDescriptor(flash).statusFlag == status && ChecksumMatches(StoredDescriptor(flash))
    ensures flash.eraseLog == old(flash.eraseLog) + [FLASH_UPDATE_INFO_ADDR]
    ensures flash.programLog == old(flash.programLog)
              + ProgramOps(FLASH_UPDATE_INFO_ADDR, Halfwords(Encode(StoredDescriptor(flash))))
    ensures flash.cells[..] == ProgramImage(EraseWalk(old(flash.cells[..]), FLASH_UPDATE_INFO_ADDR, 1),
                                            FLASH_UPDATE_INFO_ADDR, Halfwords(Encode(StoredDescriptor(flash))))
    ensures forall k :: 0 <= k < HALFWORDS && !InInfoPage(k) ==> flash.cells[k] == old(flash.cells[k])
    ensures forall k :: 0 <= k < HALFWORDS && PastDescriptor(k) ==> flash.cells[k] == ERASED
  {
    var info := Decode(flash.Read(FLASH_UPDATE_INFO_ADDR, DESCRIPTOR_SIZE));
    info := info.(statusFlag := status);
    var checksum := PacketHeadChecksum(info);
    info := info.(packHeadChecknum := checksum);
    Commit(flash, info);
  }

  /**
   * `save_update_info`: stamps the caller's descriptor with status START,
   * the serial port and the receiver id, embeds the matching checksum
   * (the caller's struct is updated in place; `saved` is its new value)
   * and commits it.
   */
  method SaveUpdateInfo(flash: Flash, info: Descriptor, usartNum: byte, receiverId: byte)
    returns (saved: Descriptor)
    requires flash.Valid() && WellFormed(info)
    modifies flash, flash.cells
    ensures flash.Valid()
    ensures saved == Sealed(info.(statusFlag := UPDATE_STATUS_START, usartNum := usartNum,
                                  receiverId := receiverId))
    ensures saved.other == info.other && saved.appFlashStartAddr == info.appFlashStartAddr
    ensures ChecksumMatches(saved) && StoredDescriptor(flash) == saved
    ensures flash.eraseLog == old(flash.eraseLog) + [FLASH_UPDATE_INFO_ADDR]
    ensures flash.programLog == old(flash.programLog)
              + ProgramOps(FLASH_UPDATE_INFO_ADDR, Halfwords(Encode(StoredDescriptor(flash))))
    ensures flash.cells[..] == ProgramImage(EraseWalk(old(flash.cells[..]), FLASH_UPDATE_INFO_ADDR, 1),
                                            FLASH_UPDATE_INFO_ADDR, Halfwords(Encode(StoredDescriptor(flash))))
    ensures forall k :: 0 <= k < HALFWORDS && !InInfoPage(k) ==> flash.cells[k] == old(flash.cells[k])
    ensures forall k :: 0 <= k < HALFWORDS && PastDescriptor(k) ==> flash.cells[k] == ERASED
  {
    saved := info.(statusFlag := UPDATE_STATUS_START, usartNum := usartNum, receiverId := receiverId);
    var checksum := PacketHeadChecksum(saved);
    saved := saved.(packHeadChecknum := checksum);
    Commit(flash, saved);
  }

  /**
   * `init`: when the stored status is not APP_NORMAL, rewrite the page
   * with status APP_NORMAL; otherwise touch nothing. Either way the stored
   * status is APP_NORMAL afterwards, so a second call erases and writes
   * nothing.
   */
  method Init(flash: Flash)
    requires flash.Valid()
    modifies flash, flash.cells
    ensures flash.Valid()
    ensures StoredDescriptor(flash).statusFlag == UPDATE_STATUS_APP_NORMAL
    ensures old(StoredDescriptor(flash)).statusFlag == UPDATE_STATUS_APP_NORMAL ==>
              && flash.cells[..] == old(flash.cells[..])
              && flash.eraseLog == old(flash.eraseLog)
              && flash.programLog == old(flash.programLog)
    ensures old(StoredDescriptor(flash)).statusFlag != UPDATE_STATUS_APP_NORMAL ==>
              && StoredDescriptor(flash) ==
                   Sealed(old(StoredDescriptor(flash)).(statusFlag := UPDATE_STATUS_APP_NORMAL))
              && flash.eraseLog == old(flash.eraseLog) + [FLASH_UPDATE_INFO_ADDR]
              && flash.programLog == old(flash.programLog)
                   + ProgramOps(FLASH_UPDATE_INFO_ADDR, Halfwords(Encode(StoredDescriptor(flash))))
              && flash.cells[..] ==
                   ProgramImage(EraseWalk(old(flash.cells[..]), FLASH_UPDATE_INFO_ADDR, 1),
                                FLASH_UPDATE_INFO_ADDR, Halfwords(Encode(StoredDescriptor(flash))))
              && (forall k :: 0 <= k < HALFWORDS && !InInfoPage(k) ==> flash.cells[k] == old(flash.cells[k]))
              && forall k :: 0 <= k < HALFWORDS && PastDescriptor(k) ==> flash.cells[k] == ERASED
  {
    var stored := Decode(flash.Read(FLASH_UPDATE_INFO_ADDR, DESCRIPTOR_SIZE));
    if stored.statusFlag != UPDATE_STATUS_APP_NORMAL {
      SetUpdateStatus(flash, UPDATE_STATUS_APP_NORMAL);
    }
  }
}
